=== FILE: README.md ===
# Proxify hackathon candidate pipeline — a Dafny model

The system ingests job candidates and links them to ESCO skills. It has three parts, and each is modelled here.

**The Flask server (`server.py`).**
- It accepts a candidate submission and stores the candidate record in a Couchbase bucket through the query service.
- It then launches the C# CV-processing tool on the CV text.
- It answers a summary request by calling the summariser.
- It dumps the five collections (Skill, Candidate, CandidateSkill, Ad, AdSkill) on request.

**The C# tool (`process_cv_csharp/Program.cs`).**
- It checks its arguments.
- It reads the CV text, from a PDF or from the argument itself, and normalises its white space.
- It loads the skill catalogue: a case-insensitive dictionary in which the first row of each name wins.
- It asks a chat-completion model which catalogue IDs the CV mentions.
- It strips Markdown code fences from the reply and keeps the IDs the catalogue knows.
- It finally writes the normalised text to the candidate, then upserts one CandidateSkill document per matched skill.

**The summariser (`summarize_genai.py`).**
- It loads a prompt configuration.
- It renders a system instruction from the configuration, raising on a missing key or a value of the wrong kind.
- It returns the backend's text, or an error text when the backend call raised.

## Modules

**`common.dfy` (Common)**
- Option and Result.
- Decimal printing of integers, with its parse-back round trip.
- Joining and splitting text on a separator character.

**`py_json.dfy` (PyJson)**
- Decoded JSON values, as Python sees them.
- Truthiness and `dict.get`. The last duplicate key wins.
- Iteration, `str()`/`repr()`, and the text of the exceptions raised.

**`cv_text.dfy` (CvText)**
- `Regex.Replace(s, @"\s+", " ").Trim()`.
- The reply clean-up `Replace("```json", "").Replace("```", "").Trim()`.

**`cv_skills.dfy` (CvSkills)**
- The catalogue, which `FetchSkills` builds.
- The skill list in the prompt.
- The reverse ID-to-name map.
- The filtering of the returned IDs.
- `MatchSkillsWithAi`.

**`cv_tool.dfy` (CvTool)**
- `int.TryParse` and the argument guard.
- `UpdateCandidate`'s request plan.
- The whole run of `Main` as a trace of external effects with an outcome.

**`summarize.dfy` (Summarize)**
- `load_prompt_config`.
- Rendering of the system instruction.
- `generate_candidate_summary`.

**`server.dfy` (Server)**
- The summary endpoint.
- `add_candidate`, as a method of a `Deployment` class. Its state is the Candidate collection, the INSERTs sent and the command lines handed to `subprocess.run`.
- `run_query` and `get_all_data`.

## How external things are modelled

Every external service is a function parameter, so each property holds for every possible answer. The parameters stand for:
- the file system, and the PDF text or PdfPig's failure to read the file;
- the query service's replies and statuses;
- the AI's reply, and the JSON parse of that reply;
- the summarisation backend;
- the extraction process's exit.

The C# loops are modelled as methods. Each one is proved equal to a function defined alongside it, and the properties are proved about those functions:
- the dictionary fill;
- the `StringBuilder` loop;
- the reverse map;
- the ID filter;
- the upsert loop.

## Model

| member | source | states |
|---|---|---|
| Common.IntToString | process_cv_csharp/Program.cs:146 | An integer is printed as a non-empty numeral made of digits and a minus sign. |
| Common.ParseIntToString | server.py:59 | Reading back the printed numeral of any integer gives that integer. |
| Common.IntToStringInjective | process_cv_csharp/Program.cs:255 | Different integers never print the same. |
| Common.SplitJoin | summarize_genai.py:45 | Splitting a newline join gives back the parts, when no part holds a newline. |
| Common.JoinAppend | summarize_genai.py:37-48 | Joining two non-empty lists puts exactly one separator between their joins. |
| Common.JoinPrefix | summarize_genai.py:45 | Text placed in front of a join becomes part of its first piece. |
| PyJson.LookupFinds | server.py:50-53 | `dict.get` finds nothing exactly when no member has the key; what it finds is a member's value. |
| PyJson.LookupLastWins | summarize_genai.py:22 | When a key occurs twice, the dict that `json.load` builds holds the value of the last occurrence. |
| PyJson.GetOrNoneFinds | server.py:35 | `data.get(key)` is None when no member of the dict has the key, and otherwise the value of the last member that has it. |
| PyJson.Keys | summarize_genai.py:45 | Iterating a dict yields each key exactly once, and only keys that occur. |
| PyJson.KeysInFirstOccurrenceOrder | summarize_genai.py:45 | A dict's keys come in order of first occurrence: of two keys, the earlier one occurs among the members before the later one occurs at all. |
| PyJson.Entries | server.py:59 | A dict shows one entry per distinct key, in first-occurrence order, with the value its lookup gives. |
| PyJson.PyStrOfInt | server.py:82 | `str()` of an integer ID is its decimal numeral, which reads back as the same integer. |
| PyJson.Iterate | summarize_genai.py:45 | A list, a string or a dict can be iterated (a list yields its items, a string one one-character string per character, a dict its keys in order); anything else raises. |
| CvText.TrimStart | process_cv_csharp/Program.cs:58 | Removing leading white space never lengthens the text. |
| CvText.TrimStartShape | process_cv_csharp/Program.cs:58 | What is left after leading white space is removed is a suffix of the input, and does not start with white space. |
| CvText.TrimEndShape | process_cv_csharp/Program.cs:58 | What is left after trailing white space is removed is a prefix of the input, and does not end with white space. |
| CvText.TrimShape | process_cv_csharp/Program.cs:58 | `Trim()` leaves one contiguous slice of its input that neither starts nor ends with white space. |
| CvText.CollapseShape | process_cv_csharp/Program.cs:58 | After every white-space run is replaced by one space, no two white-space characters are adjacent and every white-space character is a plain space. The result is empty exactly when the input is, and it keeps the first character, or a space for a leading white-space run. |
| CvText.NormalizeShape | process_cv_csharp/Program.cs:58 | Normalised CV text has no white space at either end, no white-space run, and no white space other than plain spaces. |
| CvText.ContentAppend | process_cv_csharp/Program.cs:58 | The non-white-space content of a concatenation is the concatenation of the contents. |
| CvText.TrimStartKeepsContent | process_cv_csharp/Program.cs:58 | Removing leading white space keeps every other character, in order. |
| CvText.TrimEndKeepsContent | process_cv_csharp/Program.cs:58 | Removing trailing white space keeps every other character, in order. |
| CvText.CollapseKeepsContent | process_cv_csharp/Program.cs:58 | Collapsing white-space runs keeps every other character, in order. |
| CvText.NormalizeKeepsContent | process_cv_csharp/Program.cs:58 | Normalisation changes only white space: the remaining characters of the CV are kept, in order. |
| CvText.CollapseFixesCollapsed | process_cv_csharp/Program.cs:58 | Text that has no white-space run and only plain spaces is left unchanged by the collapse. |
| CvText.NormalizeFixedPoints | process_cv_csharp/Program.cs:58 | Normalisation leaves a text unchanged if and only if the text is already in normal form. |
| CvText.NormalizeIdempotent | process_cv_csharp/Program.cs:58 | Normalising twice gives the same text as normalising once. |
| CvText.StripFencesShape | process_cv_csharp/Program.cs:195 | The cleaned AI reply contains no "```" and has no white space at its ends. |
| CvText.NoFenceAfterRemoval | process_cv_csharp/Program.cs:195 | Removing every "```" never creates a new "```" out of the back-ticks on either side of a removed fence. |
| CvText.RemoveAllAbsent | process_cv_csharp/Program.cs:195 | Replacing a pattern whose first character does not occur in the text leaves the text unchanged. |
| CvText.StripFencesWithoutTicks | process_cv_csharp/Program.cs:195 | A reply without back-ticks is only trimmed. |
| CvSkills.FindIdNone | process_cv_csharp/Program.cs:132 | A case-insensitive lookup fails exactly when no skill's name matches up to case. |
| CvSkills.FindIdFirst | process_cv_csharp/Program.cs:132 | The lookup answers with the ID of the first skill whose name matches up to case. |
| CvSkills.FindIdAppend | process_cv_csharp/Program.cs:132-134 | Adding a skill at the end changes the lookup only for a name that was not found before. |
| CvSkills.FindIdSameName | process_cv_csharp/Program.cs:127 | Names that differ only in case are looked up alike. |
| CvSkills.Catalogue | process_cv_csharp/Program.cs:127-136 | The dictionary never has more entries than there were rows, and every entry is one of the rows. |
| CvSkills.CatalogueLookup | process_cv_csharp/Program.cs:127-136 | Looking a name up in the dictionary gives what scanning the rows for the first case-insensitive match gives. |
| CvSkills.CatalogueNamesDistinct | process_cv_csharp/Program.cs:132-135 | No two dictionary entries have names that differ only in case. |
| CvSkills.CatalogueCoversRows | process_cv_csharp/Program.cs:128-135 | Every row's name, up to case, is a key of the dictionary. |
| CvSkills.FirstRowWins | process_cv_csharp/Program.cs:132-135 | Among rows whose names differ only in case, the dictionary keeps the ID of the first. |
| CvSkills.FetchSkills | process_cv_csharp/Program.cs:127-136 | The dictionary-filling loop yields exactly the catalogue, which answers every name as the rows do. |
| CvSkills.SkillLines | process_cv_csharp/Program.cs:144-147 | There is one "<id>: <name>" line per catalogue entry. |
| CvSkills.SkillLinesSnoc | process_cv_csharp/Program.cs:144-147 | One more entry adds exactly its own line at the end. |
| CvSkills.AppendLinesSnoc | process_cv_csharp/Program.cs:146 | `AppendLine` adds the line and then a line break to what was written so far. |
| CvSkills.SplitAppendLines | process_cv_csharp/Program.cs:143-147 | Splitting the text that `AppendLine` wrote gives back the lines, followed by the empty rest after the final break. |
| CvSkills.SkillListLines | process_cv_csharp/Program.cs:143-147 | When no skill name holds a line break, the skill list splits into exactly one "<id>: <name>" line per catalogue entry, in enumeration order. |
| CvSkills.SkillLineSingle | process_cv_csharp/Program.cs:146 | A skill line holds no line break when the name holds none. |
| CvSkills.BuildSkillList | process_cv_csharp/Program.cs:143-147 | The StringBuilder loop produces the rendered skill list. |
| CvSkills.IdToNameKeys | process_cv_csharp/Program.cs:204-205 | The reverse map's keys are exactly the catalogue's IDs. |
| CvSkills.IdToNameLastWins | process_cv_csharp/Program.cs:205 | An ID maps to the name of the last entry enumerated with that ID. |
| CvSkills.BuildIdToName | process_cv_csharp/Program.cs:204-205 | The loop builds exactly the reverse map. |
| CvSkills.KnownMatches | process_cv_csharp/Program.cs:207-213 | There are no more matches than returned IDs, and every match pairs a known ID with the name the reverse map gives for it. |
| CvSkills.KnownMatchesAppend | process_cv_csharp/Program.cs:207-213 | Filtering distributes over concatenation, so the order of the AI's reply is kept. |
| CvSkills.KnownMatchesCount | process_cv_csharp/Program.cs:207-213 | A known ID occurs among the matches as often as in the reply, duplicates included; an unknown ID never occurs. |
| CvSkills.KeepKnownIds | process_cv_csharp/Program.cs:207-213 | The filtering loop yields exactly the known matches. |
| CvSkills.MatchSkillsWithAi | process_cv_csharp/Program.cs:140-222 | The prompt is the verbatim template around the rendered skill list and the CV text; the result is what the AI's reply to that prompt leads to. |
| CvSkills.InterpretReply | process_cv_csharp/Program.cs:176-219 | The reply handling, with its map and filter loops, gives exactly the outcome `CvSkills.MatchReply` defines for the reply. |
| CvSkills.MatchReplyOutcomes | process_cv_csharp/Program.cs:176-219 | A non-success status fails with the status and body. A reply that does not parse fails with the cleaned content. Otherwise matching succeeds, with at most one match per returned ID, and every match a catalogue entry. |
| CvSkills.MatchesComeFromCatalogue | process_cv_csharp/Program.cs:204-213 | Every reconstructed (id, name) pair is an entry of the catalogue. |
| CvTool.StripNumberWhite | process_cv_csharp/Program.cs:35 | Stripping the surrounding white space never lengthens the argument. |
| CvTool.TryParseInt32 | process_cv_csharp/Program.cs:35 | A parsed candidate ID is always within the 32-bit range. |
| CvTool.TryParseInt32OfIntToString | process_cv_csharp/Program.cs:35 | Every 32-bit integer, printed in decimal, passes `int.TryParse` as itself. |
| CvTool.SplitSkillKey | process_cv_csharp/Program.cs:255 | Splitting a skill key on ':' after its prefix gives the two IDs around an empty piece. |
| CvTool.SkillKeyInjective | process_cv_csharp/Program.cs:255 | Distinct (candidate, skill) pairs get distinct document keys. |
| CvTool.UpdateCandidate | process_cv_csharp/Program.cs:236-272 | The requests sent are the CVText update, then one level-1 upsert per found skill, in order. Each records whether its status was a success, and a failure does not stop the rest. |
| CvTool.UpsertKeysDistinct | process_cv_csharp/Program.cs:253-261 | Two upserts of one run write the same document exactly when they link the same skill ID. |
| CvTool.StoreEffects | process_cv_csharp/Program.cs:85 | There is one store write per request sent, in the order sent. |
| CvTool.ReadCvText | process_cv_csharp/Program.cs:44-58 | The PDF is read exactly when the argument names an existing ".pdf" file in any case. There is no CV text exactly when PdfPig could not read that PDF; otherwise it is the normalised PDF text or argument. |
| CvTool.EndsWithStoredPlan | process_cv_csharp/Program.cs:83-85 | A write-free trace followed by the writes of an update plan ends with exactly that plan. |
| CvTool.StoreMatches | process_cv_csharp/Program.cs:83-85 | Storing the matches keeps the earlier trace as it was and appends exactly the plan: the CVText update, then one upsert per matched skill. |
| CvTool.UnreadablePdfAborts | process_cv_csharp/Program.cs:44-50 | With a valid ID, an existing ".pdf" argument that PdfPig cannot read ends the run aborted, before the Skill query. |
| CvTool.FinishedOnlyWhenMatched | process_cv_csharp/Program.cs:26-93 | A run finishes only when the candidate ID parsed, the CV text was read, the skill query succeeded, the AI answered, and its cleaned reply parsed as an ID list; every stored skill is a catalogue entry. |
| CvTool.Conclude | process_cv_csharp/Program.cs:80-88 | A failed match ends the run with no write; otherwise the earlier trace is kept and grows by exactly the update plan for the matched skills. |
| CvTool.MatchAndStore | process_cv_csharp/Program.cs:73-88 | Once the Skill rows have arrived, the outcome is `CvTool.MatchOutcome`: the reply to the prompt built from the catalogue and the CV text, interpreted against the catalogue. The trace writes nothing unless the run finishes, and then it ends with the update plan. |
| CvTool.ProcessCv | process_cv_csharp/Program.cs:42-93 | Once the ID is known, the run ends with `CvTool.ProcessOutcome`: an unreadable PDF aborts after the read attempt alone, a failed Skill query aborts, otherwise the match of the normalised text decides. Nothing is written unless it finishes, and then it ends with the plan for the normalised text. |
| CvTool.RunTool | process_cv_csharp/Program.cs:26-94 | The tool does nothing when the guard fails (fewer than three arguments, or a non-integer ID). Otherwise it ends with `CvTool.RunOutcome`, and it writes only the plan for the parsed ID and the normalised text, and only after a successful match. |
| Summarize.LoadPromptConfig | summarize_genai.py:14-25 | A missing prompt file gives None; any other failure propagates; a parsed file gives its content (for a file holding `null`, Some(JNull), Python's None as well). |
| Summarize.Index | summarize_genai.py:38-45 | Indexing succeeds exactly on a dict that has the key, and gives the last value for it. On a dict it otherwise raises KeyError; on a non-dict, TypeError. |
| Summarize.Bullets | summarize_genai.py:45 | Prefixing succeeds exactly when every requirement is a string, giving one "  * "-prefixed line per requirement, in order. |
| Summarize.RenderFailsIffMalformed | summarize_genai.py:37-48 | Rendering raises exactly when the configuration lacks a key or holds a value of the wrong kind. |
| Summarize.InstructionIsJoin | summarize_genai.py:37-48 | The instruction is the newline join of its source lines, with the requirement block indented on its first line only. |
| Summarize.HeadSingleLines | summarize_genai.py:37-44 | The lines before the requirements are single lines when the fields are. |
| Summarize.TailSingleLines | summarize_genai.py:46-48 | The closing lines hold no line break. |
| Summarize.IndentFirstSingleLines | summarize_genai.py:45 | Indenting the first bullet keeps every bullet on one line. |
| Summarize.InstructionLayout | summarize_genai.py:37-48 | Every field lands verbatim on its own line, and each requirement becomes one line, in order. |
| Summarize.IndexInstructionOf | summarize_genai.py:38-43 | A documented configuration gives back its role, task, tone and style guide. |
| Summarize.IndexGuideOf | summarize_genai.py:43-45 | A documented style guide gives back its example and its requirements. |
| Summarize.RenderConfigOf | summarize_genai.py:37-48 | A configuration of strings renders each field verbatim, and each requirement as a "  * " bullet. |
| Summarize.GenerateCandidateSummary | summarize_genai.py:27-68 | The function raises exactly when the configuration is malformed or the client cannot be built. Otherwise it returns the backend's text, or "Error generating summary: " followed by the exception's message. |
| Server.SummaryEndpoint | server.py:32-44 | A non-dict body gives 500. Missing candidate data gives 400 before the configuration is checked. A missing configuration gives 500. Otherwise the answer is 200 with the summary, exactly when generation does not raise. |
| Server.NullConfigAnsweredAsMissing | server.py:39-40 | A prompt file holding `null` is answered exactly as a missing prompt file is. |
| Server.SummaryFailuresAreAnswers | server.py:43-44 | A backend failure still gets a 200 answer, whose summary is the error text. |
| Server.ReadFields | server.py:49-56 | A submission passes exactly when the body is a dict whose id, name, email and cvText are all truthy. A dict lacking any of them gives 400; a non-dict gives 500. |
| Server.StatementIgnoresUserText | server.py:59-66 | Submissions with the same ID send the same statement text, whatever their name, e-mail or CV text; those three travel only as the `$name`, `$email` and `$cvText` parameters. |
| Server.CandidateKeysDistinct | server.py:59 | Two integer IDs give the same candidate document key exactly when they are equal. |
| Server.DbFailure | server.py:69-96 | A non-200 reply gives 500 with the fixed error and the reply text; a raised request gives 500 with its message. |
| Server.ExtractorArgs | server.py:81-85 | The command line is built exactly when the CV text is a string, the API key is set, and none of the CV text, `str(id)` and the key holds U+0000; it then ends with those three. A CV text that is not a string raises TypeError; a U+0000 in the CV text or the ID raises ValueError "embedded null byte". |
| Server.ExtractionResponse | server.py:87-96 | Exit code 0 gives 200; any other exit code gives 201 with the tool's stderr; a launch failure gives 500. |
| Server.Deployment.AddCandidate | server.py:46-96 | A rejected submission changes nothing, and an accepted one sends exactly one INSERT. A 200 reply stores the record, which stays stored whatever the extraction does; `subprocess.run` is called at most once, and only afterwards; when its arguments cannot be converted (a U+0000, a missing key) the answer is 500 with the exception's text and nothing is called. A 200 or 201 answer means the record is stored. |
| Server.ToolAcceptsIntegerId | server.py:81-85 | For a 32-bit integer ID and a CV text and key without U+0000, the arguments after `--` pass the tool's guard with that ID, and the first of them is the CV text. |
| Server.EveryRunReportedAsProcessed | process_cv_csharp/Program.cs:26-93 | `Main` returns normally on every path, so whatever a run of the tool does, its exit code is 0 and the server answers 200 "processed successfully"; the 201 warning never reports a failure inside the tool. |
| Server.NonNumericIdReportedAsProcessed | server.py:81-92 | For every string ID that `int.TryParse` rejects (with no U+0000 in it, the CV text or the key), the command line passes it as the tool's second argument, the guard fails and the run ends with the rejected ID (so nothing is written), yet the server answers 200 "processed successfully". |
| Server.AbcIsNotAnInt32 | process_cv_csharp/Program.cs:35 | "abc" is such an ID: `int.TryParse` rejects it. |
| Server.RunQuery | server.py:103-107 | A raised request passes its message on. A non-200 status raises "Query failed: " followed by the text. Otherwise the answer's `results` are returned, or [] when there are none. |
| Server.Statements | server.py:110-114 | One `SELECT VALUE t` statement per collection, in the order Skill, Candidate, CandidateSkill, Ad, AdSkill. |
| Server.FirstFailure | server.py:110-114 | The position of the first failing query: every earlier query succeeds. |
| Server.RunQueries | server.py:110-114 | Queries run in order and the first failure stops the run. Either every result is returned, or the error of the last statement sent is, and all statements before it succeeded. |
| Server.GetAllData | server.py:98-126 | The answer is 200 exactly when all five queries succeed, with each query's results under its key. Otherwise it is 500 with the first error's message and no partial data. |

## Left out

- PDF text extraction (PdfPig) is left out. The text of a PDF is a parameter, which is None when PdfPig throws.
- The HTTP transport, Basic/Bearer authentication and JSON serialisation of requests are left out. Each call is a function from what is sent to what comes back.
- Decoding of the query service's and the AI's JSON envelopes is left out. The Skill rows arrive as an option that is None on a non-success status or a missing `results`. The AI's reply arrives as either a rejection or the message content.
- `JsonSerializer.Deserialize<int[]>` is a parameter that answers an ID list or nothing. A reply of `null`, which deserialises to null and then throws in the loop, falls under "nothing".
- Malformed Skill rows (a missing `SkillName`/`ID`, or a non-32-bit ID) are left out, and so is a null message content. Both throw inside the tool and end the run the way a failed match does.
- An exception raised by the network while `UpdateCandidate` is writing is left out. Every store request in the model receives a status.
- Console output, the stack trace and Flask's logging are left out: they change no state and no answer.
- Case-insensitive name comparison (`StringComparer.OrdinalIgnoreCase`) is modelled for ASCII letters only. Non-ASCII case folding is left out.
- `AppendLine` is modelled as writing "\n", the line break on Linux. The verbatim prompt template is modelled with "\n" line breaks, as the file is stored with them.
- CvTool.TryParseInt32 does not model trailing NUL characters, which `int.TryParse` also tolerates after a number.
- CvText.TrimStart: its own contract states only the length bound. That the result is a suffix without leading white space is CvText.TrimStartShape, and keeping the content is CvText.TrimStartKeepsContent.
- CvTool.StripNumberWhite: its own contract states only the length bound. Its effect on a numeral is CvTool.NumeralUnstripped.
- The effect `AskAi` in the tool's trace does not carry the prompt text. The prompt is fixed by the contract of CvSkills.MatchSkillsWithAi, and the outcome by CvTool.MatchOutcome.
- The system prompt, the model name, the temperature and the endpoints are left out. They are constants that no behaviour of the model depends on.
- JSON numbers other than integers (floats) are left out. `repr` of strings uses single quotes without escaping.
- Environment configuration (`load_dotenv`, `os.getenv` defaults) is left out. The bucket name and the API key are parameters of `Deployment`.
- The path resolution of `load_prompt_config` is left out. A load attempt is described by its outcome.
- A request body that is not JSON is left out: the bodies are modelled as decoded JSON values. In `generate_summary` Flask answers such a request with its own 400/415; in `add_candidate` the `request.json` access sits inside the `try`, so the answer would be 500 with the exception's text.
- The order in which `jsonify` writes an object's keys (sorted by default) is left out. Answer objects list their members in the order the source's dict literal gives them.
- Static file serving (`serve_index`, `serve_static`) is left out, and so is the `__main__` block.
- `create_datadump.py` and `list_models.py` are left out. They are stand-alone scripts outside the server and the tool.
- Concurrency between requests is left out. Each handler call is modelled as running alone.

=== FILE: common.dfy ===
/**
 * Values and text helpers shared by the C# extraction tool and the Python
 * server: an Option/Result pair, the decimal rendering of integers that both
 * `$"{n}"` in C# and `str(n)` in Python produce, and joining/splitting text on
 * a separator character.
 */
module Common {

  datatype Option<+T> = None | Some(value: T)

  datatype Result<+T, +E> = Success(value: T) | Failure(error: E) {
    predicate IsFailure() { Failure? }
    function PropagateFailure<U>(): Result<U, E>
      requires Failure?
    {
      Failure(error)
    }
    function Extract(): T
      requires Success?
    {
      value
    }
  }

  // ---------------------------------------------------------------------------
  // Decimal rendering and parsing of integers
  // ---------------------------------------------------------------------------

  predicate IsDigit(c: char) { '0' <= c <= '9' }

  predicate AllDigits(s: string) { forall i :: 0 <= i < |s| ==> IsDigit(s[i]) }

  function DigitChar(d: nat): (c: char)
    requires d < 10
    ensures IsDigit(c)
  {
    (('0' as int) + d) as char
  }

  function DigitValue(c: char): nat
    requires IsDigit(c)
  {
    (c as int) - ('0' as int)
  }

  /** The shortest decimal numeral of `n`: no sign, no leading zero. */
  function NatToString(n: nat): (s: string)
    ensures s != [] && AllDigits(s)
    ensures |s| > 1 ==> s[0] != '0'
  {
    if n < 10 then [DigitChar(n)] else NatToString(n / 10) + [DigitChar(n % 10)]
  }

  /** How an integer is printed: a minus sign for negative values, then its digits. */
  function IntToString(n: int): (s: string)
    ensures s != []
    ensures forall i :: 0 <= i < |s| ==> IsDigit(s[i]) || s[i] == '-'
  {
    if n < 0 then "-" + NatToString(-n) else NatToString(n)
  }

  /** The value of a non-empty run of decimal digits. */
  function DigitsValue(s: string): nat
    requires AllDigits(s)
  {
    if s == [] then 0 else DigitsValue(s[..|s| - 1]) * 10 + DigitValue(s[|s| - 1])
  }

  /** Reads a numeral of the form IntToString writes: an optional '-', then at least one digit. */
  function ParseDecimal(s: string): Option<int>
  {
    if |s| > 1 && s[0] == '-' && AllDigits(s[1..]) then Some(0 - DigitsValue(s[1..]))
    else if s != [] && AllDigits(s) then Some(DigitsValue(s))
    else None
  }

  lemma {:induction false} DigitsValueOfNatToString(n: nat)
    ensures DigitsValue(NatToString(n)) == n
  {
    if n >= 10 {
      var s := NatToString(n);
      assert s[..|s| - 1] == NatToString(n / 10);
      DigitsValueOfNatToString(n / 10);
    }
  }

  /** Parsing what IntToString printed gives back the integer. */
  lemma ParseIntToString(n: int)
    ensures ParseDecimal(IntToString(n)) == Some(n)
  {
    if n < 0 {
      var s := IntToString(n);
      assert s[1..] == NatToString(-n);
      DigitsValueOfNatToString(-n);
    } else {
      DigitsValueOfNatToString(n);
    }
  }

  /** Different integers print differently. */
  lemma IntToStringInjective(a: int, b: int)
    requires IntToString(a) == IntToString(b)
    ensures a == b
  {
    ParseIntToString(a);
    ParseIntToString(b);
  }

  // ---------------------------------------------------------------------------
  // Joining and splitting on a separator character
  // ---------------------------------------------------------------------------

  /** `sep.join(parts)` with a one-character separator. */
  function Join(sep: char, parts: seq<string>): string
  {
    if parts == [] then []
    else if |parts| == 1 then parts[0]
    else parts[0] + [sep] + Join(sep, parts[1..])
  }

  /** Position of the first `c` in `s`. */
  function IndexOf(s: string, c: char): (k: nat)
    requires c in s
    ensures k < |s| && s[k] == c && c !in s[..k]
  {
    if s[0] == c then 0 else 1 + IndexOf(s[1..], c)
  }

  /**
   * `s.split(sep)`: the pieces between separators; there is always one more
   * piece than there are separators, so "" splits into [""].
   */
  function Split(s: string, sep: char): (r: seq<string>)
    ensures |r| >= 1
    decreases |s|
  {
    if sep in s then
      var k := IndexOf(s, sep);
      [s[..k]] + Split(s[k + 1..], sep)
    else [s]
  }

  lemma SplitAfterPiece(a: string, sep: char, b: string)
    requires sep !in a
    ensures Split(a + [sep] + b, sep) == [a] + Split(b, sep)
  {
    var s := a + [sep] + b;
    assert s[|a|] == sep;
    assert s[..|a|] == a;
    var k := IndexOf(s, sep);
    assert k == |a|;
    assert s[..k] == a;
    assert s[k + 1..] == b;
  }

  /** Splitting a joined list gives the list back, when no part holds the separator. */
  lemma {:induction false} SplitJoin(sep: char, parts: seq<string>)
    requires parts != []
    requires forall i :: 0 <= i < |parts| ==> sep !in parts[i]
    ensures Split(Join(sep, parts), sep) == parts
  {
    if |parts| > 1 {
      SplitAfterPiece(parts[0], sep, Join(sep, parts[1..]));
      SplitJoin(sep, parts[1..]);
    }
  }

  /** Joining two non-empty lists puts one separator between their joins. */
  lemma {:induction false} JoinAppend(sep: char, a: seq<string>, b: seq<string>)
    requires a != [] && b != []
    ensures Join(sep, a + b) == Join(sep, a) + [sep] + Join(sep, b)
  {
    assert (a + b)[0] == a[0];
    if |a| == 1 {
      assert (a + b)[1..] == b;
    } else {
      assert (a + b)[1..] == a[1..] + b;
      JoinAppend(sep, a[1..], b);
    }
  }

  /** Text placed before a join becomes part of its first piece. */
  lemma JoinPrefix(sep: char, p: string, parts: seq<string>)
    requires parts != []
    ensures p + Join(sep, parts) == Join(sep, [p + parts[0]] + parts[1..])
  {
    var q := [p + parts[0]] + parts[1..];
    assert q[0] == p + parts[0];
    if |parts| > 1 {
      assert q[1..] == parts[1..];
    }
  }
}

=== FILE: cv_skills.dfy ===
/**
 * The skill side of the CV-processing tool (process_cv_csharp/Program.cs):
 * the case-insensitive skill catalogue `FetchSkills` builds from the Skill
 * rows, the "<id>: <name>" list sent to the AI, and the post-processing of
 * the AI's reply in `MatchSkillsWithAi` (reverse ID-to-name map, filtering of
 * the returned IDs).
 *
 * A .NET `Dictionary` that is only ever added to enumerates its entries in
 * insertion order, so the catalogue is an insertion-ordered sequence of
 * entries; the reverse map is an ordinary map.
 */
module CvSkills {
  import opened Common
  import CvText

  /** A Skill row (`ID`, `SkillName`), and equally a catalogue entry or a matched skill. */
  datatype Skill = Skill(name: string, id: int)

  // ---------------------------------------------------------------------------
  // StringComparer.OrdinalIgnoreCase
  // ---------------------------------------------------------------------------

  function UpperAscii(c: char): char
  {
    if 'a' <= c <= 'z' then ((c as int) - 32) as char else c
  }

  /** The form under which two names compare equal ignoring case. */
  function Fold(s: string): string
  {
    seq(|s|, i requires 0 <= i < |s| => UpperAscii(s[i]))
  }

  predicate SameName(a: string, b: string)
  {
    Fold(a) == Fold(b)
  }

  /** Case-insensitive lookup: the ID of the first skill named `name`. */
  function FindId(skills: seq<Skill>, name: string): Option<int>
  {
    if skills == [] then None
    else if SameName(skills[0].name, name) then Some(skills[0].id)
    else FindId(skills[1..], name)
  }

  lemma {:induction false} FindIdNone(skills: seq<Skill>, name: string)
    ensures FindId(skills, name).None? <==> forall i :: 0 <= i < |skills| ==> !SameName(skills[i].name, name)
  {
    if skills != [] {
      FindIdNone(skills[1..], name);
      assert forall i :: 1 <= i < |skills| ==> skills[i] == skills[1..][i - 1];
    }
  }

  /** The lookup answers with the first skill whose name matches. */
  lemma {:induction false} FindIdFirst(skills: seq<Skill>, name: string, i: nat)
    requires i < |skills| && SameName(skills[i].name, name)
    requires forall j :: 0 <= j < i ==> !SameName(skills[j].name, name)
    ensures FindId(skills, name) == Some(skills[i].id)
  {
    if i > 0 {
      FindIdFirst(skills[1..], name, i - 1);
    }
  }

  lemma {:induction false} FindIdAppend(skills: seq<Skill>, s: Skill, name: string)
    ensures FindId(skills + [s], name) ==
      if FindId(skills, name).Some? then FindId(skills, name)
      else if SameName(s.name, name) then Some(s.id)
      else None
  {
    if skills != [] {
      assert (skills + [s])[1..] == skills[1..] + [s];
      FindIdAppend(skills[1..], s, name);
    }
  }

  lemma {:induction false} FindIdSameName(skills: seq<Skill>, a: string, b: string)
    requires SameName(a, b)
    ensures FindId(skills, a) == FindId(skills, b)
  {
    if skills != [] {
      FindIdSameName(skills[1..], a, b);
    }
  }

  // ---------------------------------------------------------------------------
  // FetchSkills: the catalogue
  // ---------------------------------------------------------------------------

  /**
   * The entries of the dictionary after the rows were added in order: a row is
   * added only when no earlier entry has its name up to case.
   */
  function Catalogue(rows: seq<Skill>): (c: seq<Skill>)
    ensures |c| <= |rows|
    ensures forall e :: e in c ==> e in rows
  {
    if rows == [] then []
    else
      var before := Catalogue(rows[..|rows| - 1]);
      var row := rows[|rows| - 1];
      if FindId(before, row.name).Some? then before else before + [row]
  }

  /** The catalogue answers every lookup as a scan of the rows for the first match would. */
  lemma {:induction false} CatalogueLookup(rows: seq<Skill>, name: string)
    ensures FindId(Catalogue(rows), name) == FindId(rows, name)
  {
    if rows != [] {
      var init, row := rows[..|rows| - 1], rows[|rows| - 1];
      assert rows == init + [row];
      var before := Catalogue(init);
      CatalogueLookup(init, name);
      FindIdAppend(init, row, name);
      if FindId(before, row.name).Some? {
        if SameName(row.name, name) {
          FindIdSameName(before, row.name, name);
        }
      } else {
        FindIdAppend(before, row, name);
      }
    }
  }

  /** No two skills have names that differ only in case. */
  predicate NamesDistinct(skills: seq<Skill>)
  {
    forall i, j :: 0 <= i < j < |skills| ==> !SameName(skills[i].name, skills[j].name)
  }

  /** No two catalogue entries have names that differ only in case. */
  lemma {:induction false} CatalogueNamesDistinct(rows: seq<Skill>)
    ensures NamesDistinct(Catalogue(rows))
  {
    if rows != [] {
      var init, row := rows[..|rows| - 1], rows[|rows| - 1];
      CatalogueNamesDistinct(init);
      var before := Catalogue(init);
      if FindId(before, row.name).None? {
        FindIdNone(before, row.name);
        var c := before + [row];
        assert Catalogue(rows) == c;
        forall i, j | 0 <= i < j < |c| ensures !SameName(c[i].name, c[j].name) {
          assert c[i] == before[i];
          if j == |before| {
            assert !SameName(before[i].name, row.name);
          } else {
            assert c[j] == before[j];
          }
        }
      } else {
        assert Catalogue(rows) == before;
      }
    }
  }

  /** Every row's name, up to case, is a key of the catalogue. */
  lemma CatalogueCoversRows(rows: seq<Skill>, k: nat)
    requires k < |rows|
    ensures FindId(Catalogue(rows), rows[k].name).Some?
  {
    CatalogueLookup(rows, rows[k].name);
    FindIdNone(rows, rows[k].name);
  }

  /** Of rows whose names differ only in case, the first one's ID is kept. */
  lemma FirstRowWins(rows: seq<Skill>, i: nat, j: nat)
    requires i <= j < |rows| && SameName(rows[i].name, rows[j].name)
    requires forall k :: 0 <= k < i ==> !SameName(rows[k].name, rows[j].name)
    ensures FindId(Catalogue(rows), rows[j].name) == Some(rows[i].id)
  {
    CatalogueLookup(rows, rows[j].name);
    FindIdFirst(rows, rows[j].name, i);
  }

  /** Lines 127-136: fill the case-insensitive dictionary, first occurrence wins. */
  method FetchSkills(rows: seq<Skill>) returns (catalogue: seq<Skill>)
    ensures catalogue == Catalogue(rows)
    ensures |catalogue| <= |rows|
    ensures forall name :: FindId(catalogue, name) == FindId(rows, name)
  {
    catalogue := [];
    for i := 0 to |rows|
      invariant catalogue == Catalogue(rows[..i])
    {
      var row := rows[i];
      if FindId(catalogue, row.name).None? {
        catalogue := catalogue + [row];
      }
      assert rows[..i + 1][..i] == rows[..i];
    }
    assert rows[..|rows|] == rows;
    forall name {
      CatalogueLookup(rows, name);
    }
  }

  // ---------------------------------------------------------------------------
  // The skill list in the prompt (lines 143-147)
  // ---------------------------------------------------------------------------

  /** `$"{kvp.Value}: {kvp.Key}"` */
  function SkillLine(e: Skill): string
  {
    IntToString(e.id) + ": " + e.name
  }

  /** One "<id>: <name>" line per entry, in order. */
  function SkillLines(entries: seq<Skill>): (lines: seq<string>)
    ensures |lines| == |entries|
  {
    seq(|entries|, i requires 0 <= i < |entries| => SkillLine(entries[i]))
  }

  lemma SkillLinesSnoc(entries: seq<Skill>, e: Skill)
    ensures SkillLines(entries + [e]) == SkillLines(entries) + [SkillLine(e)]
  {
    var a, b := SkillLines(entries + [e]), SkillLines(entries) + [SkillLine(e)];
    assert forall k :: 0 <= k < |a| ==> a[k] == b[k];
  }

  /** Successive `AppendLine` calls: each line followed by a line break. */
  function AppendLines(lines: seq<string>): string
  {
    if lines == [] then [] else lines[0] + "\n" + AppendLines(lines[1..])
  }

  /** The skill list: one `AppendLine` per entry, in enumeration order. */
  function RenderSkillList(entries: seq<Skill>): string
  {
    AppendLines(SkillLines(entries))
  }

  /** Appending one more line to what was written so far. */
  lemma {:induction false} AppendLinesSnoc(lines: seq<string>, line: string)
    ensures AppendLines(lines + [line]) == AppendLines(lines) + line + "\n"
  {
    if lines == [] {
      assert lines + [line] == [line];
    } else {
      var rest := lines[1..];
      assert (lines + [line])[0] == lines[0];
      assert (lines + [line])[1..] == rest + [line];
      assert AppendLines(lines + [line]) == lines[0] + "\n" + AppendLines(rest + [line]);
      AppendLinesSnoc(rest, line);
      Regroup(lines[0] + "\n", AppendLines(rest), line + "\n");
    }
  }

  lemma Regroup(a: string, b: string, c: string)
    ensures a + (b + c) == a + b + c
  {
  }

  /** Splitting what AppendLine wrote gives back the lines, then the empty rest after the last break. */
  lemma {:induction false} SplitAppendLines(lines: seq<string>)
    requires forall i :: 0 <= i < |lines| ==> '\n' !in lines[i]
    ensures Split(AppendLines(lines), '\n') == lines + [""]
  {
    if lines == [] {
      assert '\n' !in "";
    } else {
      var rest := lines[1..];
      assert AppendLines(lines) == lines[0] + ['\n'] + AppendLines(rest);
      SplitAfterPiece(lines[0], '\n', AppendLines(rest));
      SplitAppendLines(rest);
      assert [lines[0]] + (rest + [""]) == lines + [""];
    }
  }

  /**
   * When no skill name holds a line break, the list splits into exactly one
   * "<id>: <name>" line per entry, in order, followed by the empty rest after
   * the final line break.
   */
  lemma SkillListLines(entries: seq<Skill>)
    requires forall i :: 0 <= i < |entries| ==> '\n' !in entries[i].name
    ensures Split(RenderSkillList(entries), '\n') == SkillLines(entries) + [""]
  {
    var lines := SkillLines(entries);
    forall i | 0 <= i < |lines| ensures '\n' !in lines[i] {
      SkillLineSingle(entries[i]);
    }
    SplitAppendLines(lines);
  }

  /** A skill line is a single line when the name is. */
  lemma SkillLineSingle(e: Skill)
    requires '\n' !in e.name
    ensures '\n' !in SkillLine(e)
  {
    var d := IntToString(e.id);
    assert '\n' !in d by {
      forall i | 0 <= i < |d| ensures d[i] != '\n' {
        assert IsDigit(d[i]) || d[i] == '-';
      }
    }
  }

  /** Lines 143-147: the StringBuilder loop over the catalogue. */
  method BuildSkillList(catalogue: seq<Skill>) returns (text: string)
    ensures text == RenderSkillList(catalogue)
  {
    text := "";
    for i := 0 to |catalogue|
      invariant text == AppendLines(SkillLines(catalogue[..i]))
    {
      var line := SkillLine(catalogue[i]);
      AppendLinesSnoc(SkillLines(catalogue[..i]), line);
      assert catalogue[..i + 1] == catalogue[..i] + [catalogue[i]];
      SkillLinesSnoc(catalogue[..i], catalogue[i]);
      text := text + line + "\n";
    }
    assert catalogue[..|catalogue|] == catalogue;
  }

  /** The user message of lines 151-158 (a verbatim string starting with a line break). */
  function UserPrompt(skillList: string, cvText: string): string
  {
    SkillsHeader + skillList + CvHeader + cvText + ReplyRequest
  }

  const SkillsHeader: string := "\nAVAILABLE SKILLS:\n"
  const CvHeader: string := "\n\nCV TEXT:\n"
  const ReplyRequest: string := "\n\nReturn JSON Array of IDs:"

  // ---------------------------------------------------------------------------
  // The reverse map (lines 204-205)
  // ---------------------------------------------------------------------------

  /** `idToName[k.Value] = k.Key` for every entry in order: later entries overwrite. */
  function IdToName(entries: seq<Skill>): map<int, string>
  {
    if entries == [] then map[]
    else IdToName(entries[..|entries| - 1])[entries[|entries| - 1].id := entries[|entries| - 1].name]
  }

  /** The keys of the reverse map are exactly the catalogue's IDs. */
  lemma {:induction false} IdToNameKeys(entries: seq<Skill>)
    ensures forall id :: id in IdToName(entries) <==> exists i :: 0 <= i < |entries| && entries[i].id == id
  {
    if entries != [] {
      var init, last := entries[..|entries| - 1], entries[|entries| - 1];
      IdToNameKeys(init);
      forall id ensures id in IdToName(entries) <==> exists i :: 0 <= i < |entries| && entries[i].id == id {
        if id == last.id {
          assert entries[|entries| - 1].id == id;
        } else {
          assert id in IdToName(entries) <==> id in IdToName(init);
          if id in IdToName(init) {
            var i :| 0 <= i < |init| && init[i].id == id;
            assert entries[i].id == id;
          }
          if exists i :: 0 <= i < |entries| && entries[i].id == id {
            var i :| 0 <= i < |entries| && entries[i].id == id;
            assert i < |init| && init[i].id == id;
          }
        }
      }
    }
  }

  /** An ID maps to the name of the last entry enumerated with it. */
  lemma {:induction false} IdToNameLastWins(entries: seq<Skill>, i: nat)
    requires i < |entries|
    requires forall j :: i < j < |entries| ==> entries[j].id != entries[i].id
    ensures entries[i].id in IdToName(entries) && IdToName(entries)[entries[i].id] == entries[i].name
  {
    if i < |entries| - 1 {
      var init := entries[..|entries| - 1];
      assert entries[i] == init[i];
      assert forall j :: i < j < |init| ==> init[j] == entries[j];
      IdToNameLastWins(init, i);
    }
  }

  /** Lines 204-205 as a loop. */
  method BuildIdToName(catalogue: seq<Skill>) returns (idToName: map<int, string>)
    ensures idToName == IdToName(catalogue)
  {
    idToName := map[];
    for i := 0 to |catalogue|
      invariant idToName == IdToName(catalogue[..i])
    {
      assert catalogue[..i + 1][..i] == catalogue[..i];
      idToName := idToName[catalogue[i].id := catalogue[i].name];
    }
    assert catalogue[..|catalogue|] == catalogue;
  }

  // ---------------------------------------------------------------------------
  // Keeping the known IDs (lines 207-213)
  // ---------------------------------------------------------------------------

  /** The IDs of a list of matches. */
  function IdsOf(matches: seq<Skill>): (ids: seq<int>)
    ensures |ids| == |matches|
  {
    if matches == [] then [] else IdsOf(matches[..|matches| - 1]) + [matches[|matches| - 1].id]
  }

  /** One match per returned ID that the reverse map knows, in the reply's order. */
  function KnownMatches(ids: seq<int>, idToName: map<int, string>): (matches: seq<Skill>)
    ensures |matches| <= |ids|
    ensures forall k :: 0 <= k < |matches| ==>
      matches[k].id in idToName && matches[k].name == idToName[matches[k].id]
  {
    if ids == [] then []
    else
      var rest := KnownMatches(ids[..|ids| - 1], idToName);
      var id := ids[|ids| - 1];
      if id in idToName then rest + [Skill(idToName[id], id)] else rest
  }

  /** Filtering distributes over concatenation, so the reply's order is kept. */
  lemma {:induction false} KnownMatchesAppend(a: seq<int>, b: seq<int>, idToName: map<int, string>)
    ensures KnownMatches(a + b, idToName) == KnownMatches(a, idToName) + KnownMatches(b, idToName)
    decreases |b|
  {
    if b == [] {
      assert a + b == a;
    } else {
      var init := b[..|b| - 1];
      assert (a + b)[..|a + b| - 1] == a + init;
      KnownMatchesAppend(a, init, idToName);
    }
  }

  /**
   * Duplicates are kept and unknown IDs dropped: each ID occurs in the matches
   * as often as in the reply when the map knows it, and never otherwise.
   */
  lemma {:induction false} KnownMatchesCount(ids: seq<int>, idToName: map<int, string>, id: int)
    ensures multiset(IdsOf(KnownMatches(ids, idToName)))[id] ==
      if id in idToName then multiset(ids)[id] else 0
  {
    if ids != [] {
      var init, last := ids[..|ids| - 1], ids[|ids| - 1];
      assert ids == init + [last];
      KnownMatchesCount(init, idToName, id);
      var rest := KnownMatches(init, idToName);
      assert multiset(ids) == multiset(init) + multiset{last};
      if last in idToName {
        var extended := rest + [Skill(idToName[last], last)];
        assert KnownMatches(ids, idToName) == extended;
        assert IdsOf(extended) == IdsOf(rest) + [last] by {
          assert extended[..|rest|] == rest;
        }
        assert multiset(IdsOf(extended)) == multiset(IdsOf(rest)) + multiset{last};
      } else {
        assert KnownMatches(ids, idToName) == rest;
      }
    }
  }

  /** Lines 207-213 as a loop. */
  method KeepKnownIds(ids: seq<int>, idToName: map<int, string>) returns (matches: seq<Skill>)
    ensures matches == KnownMatches(ids, idToName)
  {
    matches := [];
    for i := 0 to |ids|
      invariant matches == KnownMatches(ids[..i], idToName)
    {
      assert ids[..i + 1][..i] == ids[..i];
      if ids[i] in idToName {
        matches := matches + [Skill(idToName[ids[i]], ids[i])];
      }
    }
    assert ids[..|ids|] == ids;
  }

  // ---------------------------------------------------------------------------
  // MatchSkillsWithAi
  // ---------------------------------------------------------------------------

  /** What the chat-completion call gives back, already decoded from its JSON envelope. */
  datatype AiReply =
    | Rejected(status: int, body: string)   // a status outside 200-299, with the error body
    | Answered(content: string)             // choices[0].message.content

  datatype MatchFailure =
    | AiRequestFailed(status: int, body: string)
    | UnparsableReply(content: string)

  /**
   * Lines 140-222: build the prompt, ask the AI, strip fences, parse the ID
   * array and keep the IDs the catalogue knows. `ai` answers a user prompt;
   * `parseIds` stands for `JsonSerializer.Deserialize<int[]>`.
   */
  method MatchSkillsWithAi(cvText: string, catalogue: seq<Skill>, ai: string -> AiReply,
                           parseIds: string -> Option<seq<int>>)
    returns (prompt: string, result: Result<seq<Skill>, MatchFailure>)
    ensures prompt == UserPrompt(RenderSkillList(catalogue), cvText)
    ensures result == MatchReply(ai(prompt), catalogue, parseIds)
  {
    var skillList := BuildSkillList(catalogue);
    prompt := UserPrompt(skillList, cvText);
    result := InterpretReply(ai(prompt), catalogue, parseIds);
  }

  /** Lines 195-213: turns the AI's reply into the matched skills, building the ID-to-name map and filtering in loops. */
  method InterpretReply(reply: AiReply, catalogue: seq<Skill>, parseIds: string -> Option<seq<int>>)
    returns (result: Result<seq<Skill>, MatchFailure>)
    ensures result == MatchReply(reply, catalogue, parseIds)
  {
    match reply
    case Rejected(status, body) =>
      result := Failure(AiRequestFailed(status, body));
    case Answered(content) =>
      var cleaned := CvText.StripFences(content);
      match parseIds(cleaned)
      case None =>
        result := Failure(UnparsableReply(cleaned));
      case Some(ids) =>
        var idToName := BuildIdToName(catalogue);
        var matches := KeepKnownIds(ids, idToName);
        result := Success(matches);
  }

  /**
   * What the AI's reply leads to (lines 195-213): a non-success status is a
   * failure carrying the status and body; otherwise the content, stripped of
   * code fences, is parsed as a list of IDs, and the IDs the catalogue knows
   * become the matches, in the order the AI gave them.
   */
  function MatchReply(reply: AiReply, catalogue: seq<Skill>, parseIds: string -> Option<seq<int>>)
    : (result: Result<seq<Skill>, MatchFailure>)
  {
    match reply
    case Rejected(status, body) => Failure(AiRequestFailed(status, body))
    case Answered(content) =>
      var cleaned := CvText.StripFences(content);
      match parseIds(cleaned)
      case None => Failure(UnparsableReply(cleaned))
      case Some(ids) => Success(KnownMatches(ids, IdToName(catalogue)))
  }

  /**
   * A rejected request fails with its status and body, an unparsable reply
   * with the cleaned content; otherwise every returned ID leads to at most
   * one match, and every match is a catalogue entry.
   */
  lemma MatchReplyOutcomes(reply: AiReply, catalogue: seq<Skill>, parseIds: string -> Option<seq<int>>)
    ensures reply.Rejected? ==> MatchReply(reply, catalogue, parseIds) == Failure(AiRequestFailed(reply.status, reply.body))
    ensures reply.Answered? ==>
      var cleaned := CvText.StripFences(reply.content);
      && (parseIds(cleaned).None? ==> MatchReply(reply, catalogue, parseIds) == Failure(UnparsableReply(cleaned)))
      && (parseIds(cleaned).Some? ==>
            && MatchReply(reply, catalogue, parseIds).Success?
            && |MatchReply(reply, catalogue, parseIds).value| <= |parseIds(cleaned).value|
            && forall s :: s in MatchReply(reply, catalogue, parseIds).value ==> s in catalogue)
  {
    if reply.Answered? {
      var cleaned := CvText.StripFences(reply.content);
      if parseIds(cleaned).Some? {
        MatchesComeFromCatalogue(catalogue, parseIds(cleaned).value);
      }
    }
  }

  /** Every match is an entry of the catalogue: a known ID with the name enumerated last for it. */
  lemma MatchesComeFromCatalogue(catalogue: seq<Skill>, ids: seq<int>)
    ensures forall s :: s in KnownMatches(ids, IdToName(catalogue)) ==> s in catalogue
  {
    var m := IdToName(catalogue);
    var matches := KnownMatches(ids, m);
    IdToNameKeys(catalogue);
    forall s | s in matches
      ensures s in catalogue
    {
      var k :| 0 <= k < |matches| && matches[k] == s;
      var id := matches[k].id;
      var i0 :| 0 <= i0 < |catalogue| && catalogue[i0].id == id;
      var i := LastWithId(catalogue, id, i0);
      IdToNameLastWins(catalogue, i);
      assert matches[k] == Skill(m[id], id);
      assert catalogue[i] == Skill(m[id], id);
    }
  }

  /** The last index holding `id`, at or after `from`. */
  lemma LastWithId(entries: seq<Skill>, id: int, from: nat) returns (i: nat)
    requires from < |entries| && entries[from].id == id
    ensures from <= i < |entries| && entries[i].id == id
    ensures forall j :: i < j < |entries| ==> entries[j].id != id
    decreases |entries| - from
  {
    if j :| from < j < |entries| && entries[j].id == id {
      i := LastWithId(entries, id, j);
    } else {
      i := from;
    }
  }
}

=== FILE: cv_text.dfy ===
/**
 * Text clean-up in the CV-processing tool (process_cv_csharp/Program.cs):
 * the whitespace normalisation applied to the CV text,
 * `Regex.Replace(rawText, @"\s+", " ").Trim()`, and the removal of Markdown
 * code fences from the AI's reply,
 * `aiContent.Replace("```json", "").Replace("```", "").Trim()`.
 */
module CvText {

  /**
   * The characters .NET treats as white space: `\s` in a regular expression
   * and `char.IsWhiteSpace` (which `Trim` uses) agree on this set — the
   * control characters TAB..CR, NEL, and the Unicode space, line and
   * paragraph separators.
   */
  predicate IsWhiteSpace(c: char)
  {
    || c == ' ' || ('\t' <= c <= '\r') || c == '\U{0085}' || c == '\U{00A0}'
    || c == '\U{1680}' || ('\U{2000}' <= c <= '\U{200A}') || c == '\U{2028}'
    || c == '\U{2029}' || c == '\U{202F}' || c == '\U{205F}' || c == '\U{3000}'
  }

  /** The non-white-space characters of `s`, in order. */
  function Content(s: string): string
  {
    if s == [] then [] else (if IsWhiteSpace(s[0]) then [] else [s[0]]) + Content(s[1..])
  }

  /** No two neighbouring characters are both white space. */
  predicate NoAdjacentWhiteSpace(s: string)
  {
    forall i :: 0 < i < |s| ==> !(IsWhiteSpace(s[i - 1]) && IsWhiteSpace(s[i]))
  }

  /** Every white-space character is a plain space. */
  predicate OnlySpaces(s: string)
  {
    forall i :: 0 <= i < |s| && IsWhiteSpace(s[i]) ==> s[i] == ' '
  }

  /** Neither starts nor ends with white space. */
  predicate Trimmed(s: string)
  {
    s == [] || (!IsWhiteSpace(s[0]) && !IsWhiteSpace(s[|s| - 1]))
  }

  /** The shape normalised text has. */
  predicate Normalized(s: string)
  {
    Trimmed(s) && NoAdjacentWhiteSpace(s) && OnlySpaces(s)
  }

  // ---------------------------------------------------------------------------
  // String.TrimStart / TrimEnd / Trim
  // ---------------------------------------------------------------------------

  /** Drops the leading white space. */
  function TrimStart(s: string): (r: string)
    ensures |r| <= |s|
  {
    if s != [] && IsWhiteSpace(s[0]) then TrimStart(s[1..]) else s
  }

  /** Drops the trailing white space. */
  function TrimEnd(s: string): string
  {
    if s != [] && IsWhiteSpace(s[|s| - 1]) then TrimEnd(s[..|s| - 1]) else s
  }

  /** What TrimStart leaves is a suffix of `s` that does not start with white space. */
  lemma {:induction false} TrimStartShape(s: string)
    ensures var r := TrimStart(s);
      && r == s[|s| - |r|..]
      && (r == [] || !IsWhiteSpace(r[0]))
    decreases |s|
  {
    if s != [] && IsWhiteSpace(s[0]) {
      var r := TrimStart(s[1..]);
      TrimStartShape(s[1..]);
      assert TrimStart(s) == r;
      assert s[1..][|s| - 1 - |r|..] == s[|s| - |r|..];
    }
  }

  /** What TrimEnd leaves is a prefix of `s` that does not end with white space. */
  lemma {:induction false} TrimEndShape(s: string)
    ensures var r := TrimEnd(s);
      && |r| <= |s| && r == s[..|r|]
      && (r == [] || !IsWhiteSpace(r[|r| - 1]))
    decreases |s|
  {
    if s != [] && IsWhiteSpace(s[|s| - 1]) {
      var r := TrimEnd(s[..|s| - 1]);
      TrimEndShape(s[..|s| - 1]);
      assert TrimEnd(s) == r;
      assert s[..|s| - 1][..|r|] == s[..|r|];
    }
  }

  /** `r` is the slice of `s` that starts at index `a`. */
  predicate SliceAt(s: string, r: string, a: int)
  {
    0 <= a && a + |r| <= |s| && r == s[a..a + |r|]
  }

  /** `String.Trim()`: white space removed at both ends. */
  function Trim(s: string): string
  {
    TrimEnd(TrimStart(s))
  }

  /**
   * What Trim leaves is the slice of `s` after its leading white space, and
   * it neither starts nor ends with white space.
   */
  lemma TrimShape(s: string)
    ensures SliceAt(s, Trim(s), |s| - |TrimStart(s)|)
    ensures Trimmed(Trim(s))
  {
    var t := TrimStart(s);
    var r := TrimEnd(t);
    var k := |s| - |t|;
    assert Trim(s) == r;
    TrimStartShape(s);
    TrimEndShape(t);
    assert t == s[k..];
    assert r == t[..|r|];
    assert r == [] || (r[0] == t[0] && !IsWhiteSpace(t[0]));
    SuffixPrefix(s, k, |r|);
  }

  lemma SuffixPrefix(s: string, k: nat, n: nat)
    requires k + n <= |s|
    ensures s[k..][..n] == s[k..k + n]
  {
  }

  // ---------------------------------------------------------------------------
  // Regex.Replace(s, @"\s+", " ")
  // ---------------------------------------------------------------------------

  /** Replaces every maximal run of white space by a single space. */
  function CollapseWhiteSpace(s: string): string
    decreases |s|
  {
    if s == [] then []
    else if IsWhiteSpace(s[0]) then " " + CollapseWhiteSpace(TrimStart(s[1..]))
    else [s[0]] + CollapseWhiteSpace(s[1..])
  }

  /**
   * Collapsed text has no white-space run and only plain spaces; it is empty
   * exactly when the input is, and starts with the input's first character,
   * or with a space when that is white space.
   */
  lemma {:induction false} CollapseShape(s: string)
    ensures var r := CollapseWhiteSpace(s);
      && NoAdjacentWhiteSpace(r) && OnlySpaces(r)
      && (r == [] <==> s == [])
      && (s != [] && !IsWhiteSpace(s[0]) ==> r[0] == s[0])
      && (s != [] && IsWhiteSpace(s[0]) ==> r[0] == ' ')
    decreases |s|
  {
    if s != [] {
      if IsWhiteSpace(s[0]) {
        var t := TrimStart(s[1..]);
        var rest := CollapseWhiteSpace(t);
        CollapseShape(t);
        TrimStartShape(s[1..]);
        ConsKeepsShape(' ', rest);
        assert CollapseWhiteSpace(s) == [' '] + rest;
      } else {
        var rest := CollapseWhiteSpace(s[1..]);
        CollapseShape(s[1..]);
        ConsKeepsShape(s[0], rest);
        assert CollapseWhiteSpace(s) == [s[0]] + rest;
      }
    }
  }

  /**
   * Putting a character in front keeps the shape when it is not white space,
   * or when it is a space followed by something that is not.
   */
  lemma ConsKeepsShape(c: char, rest: string)
    requires NoAdjacentWhiteSpace(rest) && OnlySpaces(rest)
    requires !IsWhiteSpace(c) || (c == ' ' && (rest == [] || !IsWhiteSpace(rest[0])))
    ensures NoAdjacentWhiteSpace([c] + rest) && OnlySpaces([c] + rest)
  {
    var r := [c] + rest;
    assert forall i :: 0 < i < |r| ==> r[i] == rest[i - 1];
  }

  /** Line 58 of Program.cs: collapse white-space runs, then trim. */
  function Normalize(s: string): string
  {
    Trim(CollapseWhiteSpace(s))
  }

  /** Normalised text has no white space at its ends, no white-space run, and only plain spaces. */
  lemma NormalizeShape(s: string)
    ensures Normalized(Normalize(s))
  {
    var c := CollapseWhiteSpace(s);
    var r := Trim(c);
    assert Normalize(s) == r;
    CollapseShape(s);
    TrimShape(c);
    SliceKeepsShape(c, r, |c| - |TrimStart(c)|);
  }

  lemma SliceKeepsShape(s: string, r: string, a: int)
    requires NoAdjacentWhiteSpace(s) && OnlySpaces(s)
    requires SliceAt(s, r, a)
    ensures NoAdjacentWhiteSpace(r) && OnlySpaces(r)
  {
    forall i | 0 < i < |r|
      ensures !(IsWhiteSpace(r[i - 1]) && IsWhiteSpace(r[i]))
    {
      assert r[i - 1] == s[a + i - 1] && r[i] == s[a + i];
    }
    forall i | 0 <= i < |r| && IsWhiteSpace(r[i])
      ensures r[i] == ' '
    {
      assert r[i] == s[a + i];
    }
  }

  // ---------------------------------------------------------------------------
  // Normalisation keeps the content
  // ---------------------------------------------------------------------------

  lemma {:induction false} ContentAppend(a: string, b: string)
    ensures Content(a + b) == Content(a) + Content(b)
  {
    if a == [] {
      assert a + b == b;
    } else {
      var head := if IsWhiteSpace(a[0]) then [] else [a[0]];
      assert (a + b)[0] == a[0];
      assert (a + b)[1..] == a[1..] + b;
      assert Content(a + b) == head + Content(a[1..] + b);
      ContentAppend(a[1..], b);
      assert head + (Content(a[1..]) + Content(b)) == (head + Content(a[1..])) + Content(b);
    }
  }

  lemma {:induction false} TrimStartKeepsContent(s: string)
    ensures Content(TrimStart(s)) == Content(s)
    decreases |s|
  {
    if s != [] && IsWhiteSpace(s[0]) {
      TrimStartKeepsContent(s[1..]);
    }
  }

  lemma {:induction false} TrimEndKeepsContent(s: string)
    ensures Content(TrimEnd(s)) == Content(s)
    decreases |s|
  {
    if s != [] && IsWhiteSpace(s[|s| - 1]) {
      var init := s[..|s| - 1];
      TrimEndKeepsContent(init);
      assert s == init + [s[|s| - 1]];
      ContentAppend(init, [s[|s| - 1]]);
    }
  }

  lemma {:induction false} CollapseKeepsContent(s: string)
    ensures Content(CollapseWhiteSpace(s)) == Content(s)
    decreases |s|
  {
    if s != [] {
      if IsWhiteSpace(s[0]) {
        var t := TrimStart(s[1..]);
        CollapseKeepsContent(t);
        TrimStartKeepsContent(s[1..]);
        ContentAppend(" ", CollapseWhiteSpace(t));
      } else {
        CollapseKeepsContent(s[1..]);
        ContentAppend([s[0]], CollapseWhiteSpace(s[1..]));
      }
    }
  }

  /** Normalisation removes and rewrites white space only: the other characters stay, in order. */
  lemma NormalizeKeepsContent(s: string)
    ensures Content(Normalize(s)) == Content(s)
  {
    var c := CollapseWhiteSpace(s);
    CollapseKeepsContent(s);
    TrimStartKeepsContent(c);
    TrimEndKeepsContent(TrimStart(c));
  }

  // ---------------------------------------------------------------------------
  // Normalisation is idempotent
  // ---------------------------------------------------------------------------

  lemma {:induction false} CollapseFixesCollapsed(s: string)
    requires NoAdjacentWhiteSpace(s) && OnlySpaces(s)
    ensures CollapseWhiteSpace(s) == s
    decreases |s|
  {
    if s != [] {
      var t := s[1..];
      assert SliceAt(s, t, 1);
      SliceKeepsShape(s, t, 1);
      CollapseFixesCollapsed(t);
      if IsWhiteSpace(s[0]) {
        assert s[0] == ' ';
        assert t == [] || !IsWhiteSpace(t[0]) by {
          if t != [] {
            assert t[0] == s[1];
            assert !(IsWhiteSpace(s[0]) && IsWhiteSpace(s[1]));
          }
        }
        assert TrimStart(t) == t;
        assert CollapseWhiteSpace(s) == " " + t;
      } else {
        assert CollapseWhiteSpace(s) == [s[0]] + t;
      }
      assert s == [s[0]] + t;
    }
  }

  /** Normalisation leaves exactly the normalised strings unchanged. */
  lemma NormalizeFixedPoints(s: string)
    ensures Normalize(s) == s <==> Normalized(s)
  {
    NormalizeShape(s);
    if Normalized(s) {
      CollapseFixesCollapsed(s);
      assert TrimStart(s) == s;
      assert TrimEnd(s) == s;
    }
  }

  /** Normalising twice changes nothing. */
  lemma NormalizeIdempotent(s: string)
    ensures Normalize(Normalize(s)) == Normalize(s)
  {
    NormalizeShape(s);
    NormalizeFixedPoints(Normalize(s));
  }

  // ---------------------------------------------------------------------------
  // Fence stripping: String.Replace(pattern, "") and the reply clean-up
  // ---------------------------------------------------------------------------

  /** `pat` occurs in `s` starting at index `i`. */
  predicate OccursAt(s: string, pat: string, i: int)
  {
    0 <= i && i + |pat| <= |s| && s[i..i + |pat|] == pat
  }

  predicate Contains(s: string, pat: string)
  {
    exists i | 0 <= i <= |s| :: OccursAt(s, pat, i)
  }

  /**
   * `s.Replace(pat, "")`: scanning from the left, every occurrence of `pat`
   * that does not overlap an earlier removed one is dropped.
   */
  function RemoveAll(s: string, pat: string): string
    requires pat != []
    decreases |s|
  {
    if s == [] then []
    else if pat <= s then RemoveAll(s[|pat|..], pat)
    else [s[0]] + RemoveAll(s[1..], pat)
  }

  const Fence: string := "```"
  const JsonFence: string := "```json"

  /** Line 195 of Program.cs: drop "```json", then "```", then trim. */
  function StripFences(content: string): string
  {
    Trim(RemoveAll(RemoveAll(content, JsonFence), Fence))
  }

  /** The cleaned reply holds no "```" and has no white space at its ends. */
  lemma StripFencesShape(content: string)
    ensures !Contains(StripFences(content), Fence)
    ensures Trimmed(StripFences(content))
  {
    var once := RemoveAll(content, JsonFence);
    var withoutFences := RemoveAll(once, Fence);
    var r := Trim(withoutFences);
    assert StripFences(content) == r;
    NoFenceAfterRemoval(once);
    TrimShape(withoutFences);
    SliceKeepsNoFence(withoutFences, r, |withoutFences| - |TrimStart(withoutFences)|);
  }

  lemma SliceKeepsNoFence(s: string, r: string, a: int)
    requires !Contains(s, Fence)
    requires SliceAt(s, r, a)
    ensures !Contains(r, Fence)
  {
    assert forall k :: 0 <= k < |r| ==> r[k] == s[a + k];
    forall i | 0 <= i <= |r|
      ensures OccursAt(r, Fence, i) ==> OccursAt(s, Fence, a + i)
    {
      if i + |Fence| <= |r| {
        assert r[i..i + |Fence|] == s[a + i..a + i + |Fence|];
      }
    }
  }

  /**
   * Removing "```" leaves no "```": removal never joins back-ticks from both
   * sides of a removed fence into a new one.
   */
  lemma {:induction false} NoFenceAfterRemoval(s: string)
    ensures !Contains(RemoveAll(s, Fence), Fence)
    decreases |s|
  {
    var r := RemoveAll(s, Fence);
    if s == [] {
    } else if Fence <= s {
      NoFenceAfterRemoval(s[3..]);
    } else {
      var tail := RemoveAll(s[1..], Fence);
      NoFenceAfterRemoval(s[1..]);
      assert r == [s[0]] + tail;
      assert !OccursAt(r, Fence, 0);
      forall i | 1 <= i <= |r|
        ensures OccursAt(r, Fence, i) ==> OccursAt(tail, Fence, i - 1)
      {
        if i + |Fence| <= |r| {
          assert r[i..i + |Fence|] == tail[i - 1..i - 1 + |Fence|];
        }
      }
    }
  }

  lemma {:induction false} RemoveAllAbsent(s: string, pat: string)
    requires pat != [] && pat[0] !in s
    ensures RemoveAll(s, pat) == s
  {
    if s != [] {
      assert !(pat <= s) by { assert s[0] != pat[0]; }
      RemoveAllAbsent(s[1..], pat);
      assert s == [s[0]] + s[1..];
    }
  }

  /** A reply without back-ticks is only trimmed. */
  lemma StripFencesWithoutTicks(content: string)
    requires '`' !in content
    ensures StripFences(content) == Trim(content)
  {
    RemoveAllAbsent(content, JsonFence);
    RemoveAllAbsent(content, Fence);
  }
}

=== FILE: cv_tool.dfy ===
/**
 * The CV-processing tool's entry point and its database writes
 * (process_cv_csharp/Program.cs): the argument guard of `Main`, the whole run
 * as a sequence of external effects, and `UpdateCandidate`'s plan of one
 * CVText update followed by one CandidateSkill upsert per matched skill.
 *
 * Every external call is a parameter: whether a path names an existing file,
 * the text PdfPig extracts, the Skill rows the query service returns, the
 * AI's reply, the JSON parse of that reply, and the status each store request
 * receives.
 */
module CvTool {
  import opened Common
  import CvText
  import opened CvSkills

  // ---------------------------------------------------------------------------
  // int.TryParse
  // ---------------------------------------------------------------------------

  const MinInt32: int := -0x8000_0000
  const MaxInt32: int := 0x7FFF_FFFF

  /** The white space `NumberStyles.Integer` allows around a number. */
  predicate IsNumberWhite(c: char) { c == ' ' || '\t' <= c <= '\r' }

  function StripNumberWhite(s: string): (r: string)
    ensures |r| <= |s|
    decreases |s|
  {
    if s != [] && IsNumberWhite(s[0]) then StripNumberWhite(s[1..])
    else if s != [] && IsNumberWhite(s[|s| - 1]) then StripNumberWhite(s[..|s| - 1])
    else s
  }

  /**
   * `int.TryParse(s, out n)`: optional surrounding white space, an optional
   * '+' or '-', at least one decimal digit, and a value that fits in 32 bits.
   */
  function TryParseInt32(s: string): (r: Option<int>)
    ensures r.Some? ==> MinInt32 <= r.value <= MaxInt32
  {
    var t := StripNumberWhite(s);
    var negative := t != [] && t[0] == '-';
    var digits := if t != [] && (t[0] == '-' || t[0] == '+') then t[1..] else t;
    if digits == [] || !AllDigits(digits) then None
    else
      var magnitude: int := DigitsValue(digits);
      var v := if negative then -magnitude else magnitude;
      if MinInt32 <= v <= MaxInt32 then Some(v) else None
  }

  /** A numeral has no surrounding white space to strip. */
  lemma NumeralUnstripped(s: string)
    requires s != []
    requires forall i :: 0 <= i < |s| ==> IsDigit(s[i]) || s[i] == '-'
    ensures StripNumberWhite(s) == s
  {
    var last := |s| - 1;
    assert IsDigit(s[0]) || s[0] == '-';
    assert IsDigit(s[last]) || s[last] == '-';
  }

  /** Every 32-bit integer, printed in decimal, parses back to itself. */
  lemma TryParseInt32OfIntToString(n: int)
    requires MinInt32 <= n <= MaxInt32
    ensures TryParseInt32(IntToString(n)) == Some(n)
  {
    var s := IntToString(n);
    NumeralUnstripped(s);
    if n < 0 {
      assert s[1..] == NatToString(-n);
      DigitsValueOfNatToString(-n);
    } else {
      DigitsValueOfNatToString(n);
    }
  }

  // ---------------------------------------------------------------------------
  // UpdateCandidate (lines 224-273)
  // ---------------------------------------------------------------------------

  /**
   * The two kinds of statement the tool posts to the query service, by their
   * parameters; an upsert's document key is derived from its IDs (DocumentKey).
   */
  datatype StoreRequest =
    | SetCvText(candidateId: int, cvText: string)
    | LinkSkill(candidateId: int, skillId: int, level: int)

  /** A request as issued, and whether its status was a success (2xx). */
  datatype Sent = Sent(request: StoreRequest, ok: bool)

  predicate IsSuccessStatus(status: int) { 200 <= status <= 299 }

  const SkillKeyPrefix: string := "candidateskill::"

  /** `$"candidateskill::{candidateId}::{skill.Id}"` */
  function SkillKey(candidateId: int, skillId: int): string
  {
    SkillKeyPrefix + IntToString(candidateId) + "::" + IntToString(skillId)
  }

  /** The upsert linking a candidate to one matched skill, at level 1 (lines 253-266). */
  function Upsert(candidateId: int, skill: Skill): StoreRequest
  {
    LinkSkill(candidateId, skill.id, 1)
  }

  /** The `$key` parameter of an upsert. */
  function DocumentKey(r: StoreRequest): string
    requires r.LinkSkill?
  {
    SkillKey(r.candidateId, r.skillId)
  }

  lemma NoColonInNumber(n: int)
    ensures ':' !in IntToString(n)
  {
    var s := IntToString(n);
    forall i | 0 <= i < |s| ensures s[i] != ':' {
      assert IsDigit(s[i]) || s[i] == '-';
    }
  }

  lemma SplitSkillKey(candidateId: int, skillId: int)
    ensures var key := SkillKey(candidateId, skillId);
      |key| >= |SkillKeyPrefix| &&
      Split(key[|SkillKeyPrefix|..], ':') == [IntToString(candidateId), "", IntToString(skillId)]
  {
    var a, b := IntToString(candidateId), IntToString(skillId);
    var key := SkillKey(candidateId, skillId);
    NoColonInNumber(candidateId);
    NoColonInNumber(skillId);
    assert key[|SkillKeyPrefix|..] == a + [':'] + ("" + [':'] + b);
    SplitAfterPiece(a, ':', "" + [':'] + b);
    SplitAfterPiece("", ':', b);
  }

  /** Distinct (candidate, skill) pairs get distinct document keys. */
  lemma SkillKeyInjective(c1: int, s1: int, c2: int, s2: int)
    requires SkillKey(c1, s1) == SkillKey(c2, s2)
    ensures c1 == c2 && s1 == s2
  {
    SplitSkillKey(c1, s1);
    SplitSkillKey(c2, s2);
    IntToStringInjective(c1, c2);
    IntToStringInjective(s1, s2);
  }

  /**
   * The requests sent follow UpdateCandidate's plan: the CVText update, then
   * one upsert per found skill, in the order the skills were found.
   */
  predicate FollowsPlan(sent: seq<Sent>, candidateId: int, cvText: string, found: seq<Skill>)
  {
    && |sent| == |found| + 1
    && sent[0].request == SetCvText(candidateId, cvText)
    && forall k :: 0 <= k < |found| ==> sent[k + 1].request == Upsert(candidateId, found[k])
  }

  /** Each sent request's flag records whether the status it received, as the n-th request, was a success. */
  predicate Acknowledged(sent: seq<Sent>, status: (nat, StoreRequest) -> int)
  {
    forall n :: 0 <= n < |sent| ==> sent[n].ok == IsSuccessStatus(status(n, sent[n].request))
  }

  lemma AcknowledgedAppend(sent: seq<Sent>, request: StoreRequest, status: (nat, StoreRequest) -> int)
    requires Acknowledged(sent, status)
    ensures Acknowledged(sent + [Sent(request, IsSuccessStatus(status(|sent|, request)))], status)
  {
  }

  /**
   * Posts the CVText update, then one upsert per found skill, in order; the
   * n-th request posted receives `status(n, request)`. A failed request is only
   * logged, so every request is issued whatever the statuses are.
   */
  method UpdateCandidate(candidateId: int, cvText: string, found: seq<Skill>,
                         status: (nat, StoreRequest) -> int)
    returns (sent: seq<Sent>)
    ensures FollowsPlan(sent, candidateId, cvText, found)
    ensures Acknowledged(sent, status)
  {
    var update := SetCvText(candidateId, cvText);
    sent := [Sent(update, IsSuccessStatus(status(0, update)))];
    for k := 0 to |found|
      invariant FollowsPlan(sent, candidateId, cvText, found[..k])
      invariant Acknowledged(sent, status)
    {
      var upsert := Upsert(candidateId, found[k]);
      AcknowledgedAppend(sent, upsert, status);
      sent := sent + [Sent(upsert, IsSuccessStatus(status(k + 1, upsert)))];
      assert found[..k + 1][..k] == found[..k];
    }
    assert found[..|found|] == found;
  }

  /** Two upserts of one run write the same document exactly when they link the same skill. */
  lemma UpsertKeysDistinct(candidateId: int, found: seq<Skill>, i: nat, j: nat)
    requires i < |found| && j < |found|
    ensures DocumentKey(Upsert(candidateId, found[i])) == DocumentKey(Upsert(candidateId, found[j]))
            <==> found[i].id == found[j].id
  {
    if SkillKey(candidateId, found[i].id) == SkillKey(candidateId, found[j].id) {
      SkillKeyInjective(candidateId, found[i].id, candidateId, found[j].id);
    }
  }

  // ---------------------------------------------------------------------------
  // Main (lines 26-94)
  // ---------------------------------------------------------------------------

  /** What the world answers; see the module comment. */
  datatype ToolEnvironment = ToolEnvironment(
    fileExists: string -> bool,
    pdfText: string -> Option<string>,   // None: PdfPig threw opening or reading the file
    skillRows: Option<seq<Skill>>,   // None: a non-success status or no `results`
    ai: string -> AiReply,
    parseIds: string -> Option<seq<int>>,
    storeStatus: (nat, StoreRequest) -> int)

  /** The externally visible steps of a run, in order. */
  datatype Effect =
    | ReadPdf(path: string)
    | QuerySkills
    | AskAi   // the prompt MatchSkillsWithAi builds
    | Store(sent: Sent)

  datatype ToolFailure = PdfUnreadable | SkillQueryFailed | MatchFailed(failure: MatchFailure)

  /** How `Main` ends: it prints and returns in every case, exceptions included. */
  datatype ToolOutcome =
    | ShowedUsage
    | RejectedCandidateId
    | Finished(found: seq<Skill>)
    | Aborted(reason: ToolFailure)

  /**
   * The process's exit code: `Main` is an `async Task` that returns normally
   * on every path, its catch-all included, so the exit code is 0 whatever
   * the outcome.
   */
  function ExitCode(outcome: ToolOutcome): int
  {
    0
  }

  /** The first argument names a PDF: an existing file whose name ends in ".pdf", in any case. */
  predicate IsPdfInput(input: string, env: ToolEnvironment)
  {
    env.fileExists(input) && |input| >= 4 && SameName(input[|input| - 4..], ".pdf")
  }

  /** The CV text before normalisation: the PDF's text (None when PdfPig threw), or the argument itself. */
  function RawText(input: string, env: ToolEnvironment): Option<string>
  {
    if IsPdfInput(input, env) then env.pdfText(input) else Some(input)
  }

  /** The CV text the run works on: the raw text with its white space normalised (line 58). */
  function CvTextOf(input: string, env: ToolEnvironment): Option<string>
  {
    match RawText(input, env)
    case None => None
    case Some(text) => Some(CvText.Normalize(text))
  }

  /** The argument guard of lines 28-39: it passes exactly when this is Some(candidate ID). */
  function CandidateIdArgument(args: seq<string>): Option<int>
  {
    if |args| < 3 then None else TryParseInt32(args[1])
  }

  /** The effects of one UpdateCandidate run, one store write per request sent. */
  function StoreEffects(sent: seq<Sent>): (effects: seq<Effect>)
    ensures |effects| == |sent|
    ensures forall i :: 0 <= i < |sent| ==> effects[i] == Store(sent[i])
  {
    if sent == [] then [] else [Store(sent[0])] + StoreEffects(sent[1..])
  }

  /**
   * Lines 42-58: the CV text, read from the PDF when the argument names one,
   * then normalised; None when PdfPig threw, which ends the run (lines 89-93).
   */
  method ReadCvText(input: string, env: ToolEnvironment) returns (effects: seq<Effect>, cvText: Option<string>)
    ensures effects == if IsPdfInput(input, env) then [ReadPdf(input)] else []
    ensures cvText.None? <==> IsPdfInput(input, env) && env.pdfText(input).None?
    ensures cvText.Some? ==> cvText.value == CvText.Normalize(RawText(input, env).value)
  {
    if IsPdfInput(input, env) {
      effects := [ReadPdf(input)];
      match env.pdfText(input)
      case None =>
        cvText := None;
      case Some(text) =>
        cvText := Some(CvText.Normalize(text));
    } else {
      effects := [];
      cvText := Some(CvText.Normalize(input));
    }
  }

  /** No effect in the trace writes to the database. */
  predicate NoWrites(effects: seq<Effect>)
  {
    forall i :: 0 <= i < |effects| ==> !effects[i].Store?
  }

  /**
   * The trace ends with exactly UpdateCandidate's plan for `cvText` and `found`
   * (the CVText update, then one upsert per skill, in order), and nothing
   * before that plan writes.
   */
  predicate EndsWithUpdatePlan(effects: seq<Effect>, candidateId: int, cvText: string, found: seq<Skill>)
  {
    var start := |effects| - |found| - 1;
    && start >= 0
    && NoWrites(effects[..start])
    && effects[start].Store?
    && effects[start].sent.request == SetCvText(candidateId, cvText)
    && forall k :: 0 <= k < |found| ==>
         effects[start + k + 1].Store? &&
         effects[start + k + 1].sent.request == Upsert(candidateId, found[k])
  }

  lemma NoWritesAppend(a: seq<Effect>, b: seq<Effect>)
    requires NoWrites(a) && NoWrites(b)
    ensures NoWrites(a + b)
  {
  }

  /** A write-free prefix followed by the store writes of an UpdateCandidate plan ends with that plan. */
  lemma EndsWithStoredPlan(before: seq<Effect>, sent: seq<Sent>, candidateId: int, cvText: string, found: seq<Skill>)
    requires NoWrites(before)
    requires FollowsPlan(sent, candidateId, cvText, found)
    ensures EndsWithUpdatePlan(before + StoreEffects(sent), candidateId, cvText, found)
  {
    var effects := before + StoreEffects(sent);
    assert effects[..|before|] == before;
    assert forall i :: 0 <= i < |sent| ==> effects[|before| + i] == Store(sent[i]);
  }

  /**
   * Lines 84-88: appends UpdateCandidate's requests, as the store writes they
   * are, to a trace that has not written yet.
   */
  method StoreMatches(before: seq<Effect>, candidateId: int, cvText: string, found: seq<Skill>,
                      status: (nat, StoreRequest) -> int)
    returns (effects: seq<Effect>)
    requires NoWrites(before)
    ensures |effects| == |before| + |found| + 1
    ensures effects[..|before|] == before
    ensures EndsWithUpdatePlan(effects, candidateId, cvText, found)
  {
    var sent := UpdateCandidate(candidateId, cvText, found, status);
    EndsWithStoredPlan(before, sent, candidateId, cvText, found);
    effects := before + StoreEffects(sent);
    assert effects[..|before|] == before;
  }

  /**
   * What matching yields once the catalogue is known: the AI's reply to the
   * prompt built from the catalogue and the CV text, interpreted against the
   * catalogue.
   */
  function MatchOutcome(cvText: string, catalogue: seq<Skill>, env: ToolEnvironment): Result<seq<Skill>, MatchFailure>
  {
    MatchReply(env.ai(UserPrompt(RenderSkillList(catalogue), cvText)), catalogue, env.parseIds)
  }

  /** How the run ends once matching has produced `matched`. */
  function Concluded(matched: Result<seq<Skill>, MatchFailure>): ToolOutcome
  {
    match matched
    case Failure(e) => Aborted(MatchFailed(e))
    case Success(found) => Finished(found)
  }

  /** How a run with a valid candidate ID ends (lines 40-93). */
  function ProcessOutcome(input: string, env: ToolEnvironment): ToolOutcome
  {
    if CvTextOf(input, env).None? then Aborted(PdfUnreadable)
    else if env.skillRows.None? then Aborted(SkillQueryFailed)
    else Concluded(MatchOutcome(CvTextOf(input, env).value, Catalogue(env.skillRows.value), env))
  }

  /** How a run with arguments `args` ends (lines 26-93). */
  function RunOutcome(args: seq<string>, env: ToolEnvironment): ToolOutcome
  {
    match CandidateIdArgument(args)
    case None => if |args| < 3 then ShowedUsage else RejectedCandidateId
    case Some(_) => ProcessOutcome(args[0], env)
  }

  /**
   * A PDF argument that PdfPig cannot read ends the run in the catch-all,
   * before the Skill query: with arguments such as ["cv.pdf", "7", key]
   * for an existing but corrupt cv.pdf, the run aborts.
   */
  lemma UnreadablePdfAborts(args: seq<string>, env: ToolEnvironment)
    requires CandidateIdArgument(args).Some?
    requires IsPdfInput(args[0], env) && env.pdfText(args[0]).None?
    ensures RunOutcome(args, env) == Aborted(PdfUnreadable)
  {
  }

  /**
   * The database is written only in a run whose candidate ID parsed, whose
   * Skill query succeeded, and whose AI reply was answered and parsed as a
   * list of IDs; the skills stored are all catalogue entries.
   */
  lemma FinishedOnlyWhenMatched(args: seq<string>, env: ToolEnvironment)
    requires RunOutcome(args, env).Finished?
    ensures CandidateIdArgument(args).Some? && CvTextOf(args[0], env).Some? && env.skillRows.Some?
    ensures var catalogue := Catalogue(env.skillRows.value);
      var reply := env.ai(UserPrompt(RenderSkillList(catalogue), CvTextOf(args[0], env).value));
      && reply.Answered?
      && env.parseIds(CvText.StripFences(reply.content)).Some?
      && forall s :: s in RunOutcome(args, env).found ==> s in catalogue
  {
    var catalogue := Catalogue(env.skillRows.value);
    var reply := env.ai(UserPrompt(RenderSkillList(catalogue), CvTextOf(args[0], env).value));
    MatchReplyOutcomes(reply, catalogue, env.parseIds);
  }

  /**
   * Lines 80-88: a failed match ends the run without writing; otherwise the
   * matched skills are stored.
   */
  method Conclude(before: seq<Effect>, candidateId: int, cvText: string,
                  matched: Result<seq<Skill>, MatchFailure>, status: (nat, StoreRequest) -> int)
    returns (effects: seq<Effect>, outcome: ToolOutcome)
    requires NoWrites(before)
    ensures outcome == Concluded(matched)
    ensures !outcome.Finished? ==> effects == before
    ensures outcome.Finished? ==> |effects| == |before| + |outcome.found| + 1 && effects[..|before|] == before
    ensures outcome.Finished? ==> EndsWithUpdatePlan(effects, candidateId, cvText, outcome.found)
  {
    if matched.Failure? {
      effects, outcome := before, Aborted(MatchFailed(matched.error));
    } else {
      effects := StoreMatches(before, candidateId, cvText, matched.value, status);
      outcome := Finished(matched.value);
    }
  }

  /** Lines 60-88, once the Skill rows have arrived: build the catalogue, ask the AI, and conclude. */
  method MatchAndStore(before: seq<Effect>, candidateId: int, cvText: string, rows: seq<Skill>,
                       env: ToolEnvironment)
    returns (effects: seq<Effect>, outcome: ToolOutcome)
    requires NoWrites(before)
    ensures |effects| > |before|
    ensures outcome == Concluded(MatchOutcome(cvText, Catalogue(rows), env))
    ensures !outcome.Finished? ==> NoWrites(effects)
    ensures outcome.Finished? ==> EndsWithUpdatePlan(effects, candidateId, cvText, outcome.found)
  {
    var catalogue := FetchSkills(rows);
    var prompt, matched := MatchSkillsWithAi(cvText, catalogue, env.ai, env.parseIds);
    assert matched == MatchOutcome(cvText, Catalogue(rows), env);
    var asked := before + [AskAi];
    NoWritesAppend(before, [AskAi]);
    effects, outcome := Conclude(asked, candidateId, cvText, matched, env.storeStatus);
  }

  /**
   * Lines 40-93, once the candidate ID is known: read and normalise the CV
   * text, fetch the catalogue, ask the AI, and store what it matched. A
   * failure in any step ends the run before anything is written; an
   * unreadable PDF ends it before the Skill query.
   */
  method ProcessCv(candidateId: int, input: string, env: ToolEnvironment)
    returns (effects: seq<Effect>, outcome: ToolOutcome)
    ensures effects != []
    ensures outcome == ProcessOutcome(input, env)
    ensures outcome == Aborted(PdfUnreadable) ==> effects == [ReadPdf(input)]
    ensures !outcome.Finished? ==> NoWrites(effects)
    ensures outcome.Finished? ==>
      && CvTextOf(input, env).Some?
      && EndsWithUpdatePlan(effects, candidateId, CvTextOf(input, env).value, outcome.found)
  {
    var read, cvText := ReadCvText(input, env);
    if cvText.None? {
      effects, outcome := read, Aborted(PdfUnreadable);
      return;
    }
    NoWritesAppend(read, [QuerySkills]);
    effects := read + [QuerySkills];
    match env.skillRows
    case None =>
      outcome := Aborted(SkillQueryFailed);
    case Some(rows) =>
      effects, outcome := MatchAndStore(effects, candidateId, cvText.value, rows, env);
  }

  /**
   * One run of the tool with arguments `args`. Nothing happens before the
   * guard passes; the database is written only once the AI's reply has been
   * matched, and then with the normalised text and exactly the plan of
   * UpdateCandidate.
   */
  method RunTool(args: seq<string>, env: ToolEnvironment) returns (effects: seq<Effect>, outcome: ToolOutcome)
    ensures effects == [] <==> CandidateIdArgument(args).None?
    ensures outcome == RunOutcome(args, env)
    ensures !outcome.Finished? ==> NoWrites(effects)
    ensures outcome.Finished? ==>
      && CandidateIdArgument(args).Some?
      && CvTextOf(args[0], env).Some?
      && EndsWithUpdatePlan(effects, CandidateIdArgument(args).value,
                            CvTextOf(args[0], env).value, outcome.found)
  {
    effects := [];
    if |args| < 3 {
      outcome := ShowedUsage;
      return;
    }
    var parsed := TryParseInt32(args[1]);
    if parsed.None? {
      outcome := RejectedCandidateId;
      return;
    }
    effects, outcome := ProcessCv(parsed.value, args[0], env);
  }
}

=== FILE: py_json.dfy ===
/**
 * JSON values as the Python side sees them once `json.load` or
 * `request.json` has decoded them, together with the few pieces of Python
 * semantics the server and the summariser rely on: truthiness, dictionary
 * lookup, iteration, `str()` and the messages of the errors they raise.
 *
 * A JSON object is kept as its list of members in document order; as in a
 * Python dict built by `json.load`, a key that occurs twice takes the value of
 * its last occurrence and keeps the position of its first.
 */
module PyJson {
  import opened Common

  datatype Json =
    | JNull
    | JBool(b: bool)
    | JInt(i: int)
    | JString(s: string)
    | JArray(items: seq<Json>)
    | JObject(members: seq<Member>)

  datatype Member = Member(key: string, value: Json)

  /** The exceptions the modelled Python code can raise, with their `str()`. */
  datatype PyError =
    | KeyError(key: string)
    | TypeError(message: string)
    | AttributeError(message: string)
    | ValueError(message: string)
    | OtherError(message: string)

  /** `str(e)`; a KeyError shows its key in quotes. */
  function ErrorText(e: PyError): string
  {
    match e
    case KeyError(key) => "'" + key + "'"
    case TypeError(m) => m
    case AttributeError(m) => m
    case ValueError(m) => m
    case OtherError(m) => m
  }

  // ---------------------------------------------------------------------------
  // Truthiness and dictionary access
  // ---------------------------------------------------------------------------

  /** `bool(v)`: None, False, 0, "", [] and {} are false, everything else is true. */
  predicate Truthy(v: Json)
  {
    match v
    case JNull => false
    case JBool(b) => b
    case JInt(i) => i != 0
    case JString(s) => s != []
    case JArray(items) => items != []
    case JObject(members) => members != []
  }

  /** The value a dict built from `members` holds for `key`: the last member with that key. */
  function Lookup(members: seq<Member>, key: string): Option<Json>
  {
    if members == [] then None
    else if members[|members| - 1].key == key then Some(members[|members| - 1].value)
    else Lookup(members[..|members| - 1], key)
  }

  /** The lookup finds nothing exactly when no member has the key, and what it finds is a member's value. */
  lemma {:induction false} LookupFinds(members: seq<Member>, key: string)
    ensures Lookup(members, key).None? <==> forall i :: 0 <= i < |members| ==> members[i].key != key
    ensures Lookup(members, key).Some? ==> Member(key, Lookup(members, key).value) in members
  {
    if members != [] && members[|members| - 1].key != key {
      var init := members[..|members| - 1];
      LookupFinds(init, key);
      assert forall i :: 0 <= i < |init| ==> init[i] == members[i];
    }
  }

  /** A later duplicate key overrides an earlier one. */
  lemma {:induction false} LookupLastWins(members: seq<Member>, i: nat)
    requires i < |members|
    requires forall j :: i < j < |members| ==> members[j].key != members[i].key
    ensures Lookup(members, members[i].key) == Some(members[i].value)
  {
    if i < |members| - 1 {
      var init := members[..|members| - 1];
      assert init[i] == members[i];
      assert forall j :: i < j < |init| ==> init[j] == members[j];
      LookupLastWins(init, i);
    }
  }

  /** `d.get(key)` on a dict: the value, or None when the key is absent. */
  function GetOrNone(members: seq<Member>, key: string): Json
  {
    match Lookup(members, key)
    case None => JNull
    case Some(v) => v
  }

  /**
   * What `d.get(key)` means for a caller: None when no member has the key,
   * and otherwise the value of the last member that has it.
   */
  lemma GetOrNoneFinds(members: seq<Member>, key: string)
    ensures (forall i :: 0 <= i < |members| ==> members[i].key != key) ==> GetOrNone(members, key) == JNull
    ensures forall i :: 0 <= i < |members| && members[i].key == key
                        && (forall j :: i < j < |members| ==> members[j].key != key) ==>
                        GetOrNone(members, key) == members[i].value
  {
    LookupFinds(members, key);
    forall i | 0 <= i < |members| && members[i].key == key && (forall j :: i < j < |members| ==> members[j].key != key)
      ensures GetOrNone(members, key) == members[i].value
    {
      LookupLastWins(members, i);
    }
  }

  /** The distinct keys of a dict built from `members`, in order of first occurrence. */
  function Keys(members: seq<Member>): (keys: seq<string>)
    ensures forall k :: k in keys <==> exists i :: 0 <= i < |members| && members[i].key == k
    ensures forall i, j :: 0 <= i < j < |keys| ==> keys[i] != keys[j]
  {
    if members == [] then []
    else
      var init := Keys(members[..|members| - 1]);
      var last := members[|members| - 1].key;
      assert forall i :: 0 <= i < |members| - 1 ==> members[..|members| - 1][i] == members[i];
      if last in init then init else init + [last]
  }

  /**
   * The keys come in order of first occurrence: of two keys, the earlier one
   * occurs in the members before the later one occurs at all.
   */
  lemma {:induction false} KeysInFirstOccurrenceOrder(members: seq<Member>, a: nat, b: nat)
    requires a < b < |Keys(members)|
    ensures exists p :: 0 <= p < |members| && members[p].key == Keys(members)[a]
                        && forall q :: 0 <= q <= p ==> members[q].key != Keys(members)[b]
  {
    var init := members[..|members| - 1];
    var last := members[|members| - 1].key;
    var keys := Keys(init);
    assert forall i :: 0 <= i < |init| ==> init[i] == members[i];
    if b < |keys| {
      KeysInFirstOccurrenceOrder(init, a, b);
      var p :| 0 <= p < |init| && init[p].key == keys[a] && forall q :: 0 <= q <= p ==> init[q].key != keys[b];
      assert members[p].key == Keys(members)[a];
    } else {
      assert last !in keys && Keys(members)[b] == last;
      assert keys[a] in keys;
      var p :| 0 <= p < |init| && init[p].key == keys[a];
      assert members[p].key == Keys(members)[a];
    }
  }

  // ---------------------------------------------------------------------------
  // Type names, str() and repr()
  // ---------------------------------------------------------------------------

  /** `type(v).__name__`, as error messages show it. */
  function TypeName(v: Json): string
  {
    match v
    case JNull => "NoneType"
    case JBool(_) => "bool"
    case JInt(_) => "int"
    case JString(_) => "str"
    case JArray(_) => "list"
    case JObject(_) => "dict"
  }

  /** `str(v)`, which is also what an f-string `{v}` produces. */
  function PyStr(v: Json): string
  {
    if v.JString? then v.s else Repr(v)
  }

  /** `repr(v)`; strings are shown in single quotes. */
  function Repr(v: Json): string
    decreases v
  {
    match v
    case JNull => "None"
    case JBool(b) => if b then "True" else "False"
    case JInt(i) => IntToString(i)
    case JString(s) => "'" + s + "'"
    case JArray(items) => "[" + ReprItems(items) + "]"
    case JObject(members) => "{" + ReprEntries(members, Entries(members)) + "}"
  }

  function ReprItems(items: seq<Json>): string
    decreases items
  {
    if items == [] then ""
    else Repr(items[0]) + (if |items| == 1 then "" else ", " + ReprItems(items[1..]))
  }

  /** The entries of a dict built from `members`: one per distinct key, with the value of its last occurrence. */
  function Entries(members: seq<Member>): (entries: seq<Member>)
    ensures |entries| == |Keys(members)|
    ensures forall i :: 0 <= i < |entries| ==>
      entries[i].key == Keys(members)[i] && Lookup(members, entries[i].key) == Some(entries[i].value)
    ensures forall e :: e in entries ==> e in members
  {
    var keys := Keys(members);
    assert forall i :: 0 <= i < |keys| ==>
      Lookup(members, keys[i]).Some? && Member(keys[i], Lookup(members, keys[i]).value) in members
    by {
      forall i | 0 <= i < |keys|
        ensures Lookup(members, keys[i]).Some? && Member(keys[i], Lookup(members, keys[i]).value) in members
      {
        assert keys[i] in keys;
        LookupFinds(members, keys[i]);
      }
    }
    seq(|keys|, i requires 0 <= i < |keys| => Member(keys[i], GetOrNone(members, keys[i])))
  }

  function ReprEntries(members: seq<Member>, entries: seq<Member>): string
    requires forall e :: e in entries ==> e in members
    decreases members, |entries|
  {
    if entries == [] then ""
    else
      assert entries[0] in members;
      "'" + entries[0].key + "': " + Repr(entries[0].value)
      + (if |entries| == 1 then "" else ", " + ReprEntries(members, entries[1..]))
  }

  /** An integer prints as its decimal numeral, which reads back as the same integer. */
  lemma PyStrOfInt(i: int)
    ensures PyStr(JInt(i)) == IntToString(i)
    ensures ParseDecimal(PyStr(JInt(i))) == Some(i)
  {
    ParseIntToString(i);
  }

  // ---------------------------------------------------------------------------
  // Iteration
  // ---------------------------------------------------------------------------

  /**
   * `for x in v`: a list yields its items, a string its characters (each a
   * one-character string), a dict its keys; anything else is not iterable.
   */
  function Iterate(v: Json): (r: Result<seq<Json>, PyError>)
    ensures r.Failure? <==> !(v.JArray? || v.JString? || v.JObject?)
    ensures v.JArray? ==> r == Success(v.items)
    ensures v.JString? ==>
      && r.Success? && |r.value| == |v.s|
      && forall i :: 0 <= i < |v.s| ==> r.value[i] == JString([v.s[i]])
    ensures v.JObject? ==>
      && r.Success? && |r.value| == |Keys(v.members)|
      && forall i :: 0 <= i < |r.value| ==> r.value[i] == JString(Keys(v.members)[i])
  {
    match v
    case JArray(items) => Success(items)
    case JString(s) => Success(seq(|s|, i requires 0 <= i < |s| => JString([s[i]])))
    case JObject(members) =>
      var keys := Keys(members);
      Success(seq(|keys|, i requires 0 <= i < |keys| => JString(keys[i])))
    case _ => Failure(TypeError("'" + TypeName(v) + "' object is not iterable"))
  }
}

=== FILE: server.dfy ===
/**
 * The HTTP layer (server.py): the summary endpoint, candidate ingestion and
 * the data dump.
 *
 * Requests arrive as already decoded JSON. The query service, the
 * generative-AI backend and the skill-extraction process are parameters: each
 * is a function from what the server sends to what comes back. An exception
 * that escapes a handler becomes Flask's plain "500 Internal Server Error"
 * page, modelled as `InternalServerError`.
 */
module Server {
  import opened Common
  import opened PyJson
  import Summarize
  import CvTool

  datatype Body = JsonBody(value: Json) | InternalServerError

  datatype Response = Response(status: int, body: Body)

  /** `jsonify({key: text})` with a status. */
  function Message(status: int, key: string, text: string): Response
  {
    Response(status, JsonBody(JObject([Member(key, JString(text))])))
  }

  // ---------------------------------------------------------------------------
  // generate_summary (lines 32-44)
  // ---------------------------------------------------------------------------

  const NoCandidateData: string := "No candidate data provided"
  const NoPromptConfig: string := "Prompt config could not be loaded"

  /**
   * `promptConfig` is what `load_prompt_config` returned once at start-up
   * (line 14): None when the prompt file was missing.
   */
  function SummaryEndpoint(data: Json, promptConfig: Option<Json>, client: Summarize.ClientInit,
                           backend: Summarize.Backend): (r: Response)
    // the request body is indexed with `.get`, which only a dict has
    ensures !data.JObject? ==> r == Response(500, InternalServerError)
    // the candidate data is checked before the configuration
    ensures data.JObject? && !Truthy(GetOrNone(data.members, "candidate_data")) ==>
      r == Message(400, "error", NoCandidateData)
    ensures data.JObject? && Truthy(GetOrNone(data.members, "candidate_data"))
            && (promptConfig.None? || !Truthy(promptConfig.value)) ==>
      r == Message(500, "error", NoPromptConfig)
    // with both present, the generator is called and its text is returned
    ensures r.status == 200 <==>
      && data.JObject? && Truthy(GetOrNone(data.members, "candidate_data"))
      && promptConfig.Some? && Truthy(promptConfig.value)
      && Summarize.GenerateCandidateSummary(GetOrNone(data.members, "candidate_data"), promptConfig.value,
                                            client, backend).Success?
    ensures r.status == 200 ==>
      var summary := Summarize.GenerateCandidateSummary(GetOrNone(data.members, "candidate_data"),
                                                        promptConfig.value, client, backend).value;
      r.body == JsonBody(JObject([Member("summary", if summary.Some? then JString(summary.value) else JNull)]))
    ensures r.status in {200, 400, 500}
  {
    if !data.JObject? then Response(500, InternalServerError)
    else
      var candidateData := GetOrNone(data.members, "candidate_data");
      if !Truthy(candidateData) then Message(400, "error", NoCandidateData)
      else if promptConfig.None? || !Truthy(promptConfig.value) then Message(500, "error", NoPromptConfig)
      else
        match Summarize.GenerateCandidateSummary(candidateData, promptConfig.value, client, backend)
        case Failure(_) => Response(500, InternalServerError)
        case Success(summary) =>
          Response(200, JsonBody(JObject([Member("summary", if summary.Some? then JString(summary.value) else JNull)])))
  }

  /**
   * A prompt file holding JSON `null` makes `load_prompt_config` return None
   * just as a missing file does; the endpoint's truthiness test (line 39)
   * answers both alike.
   */
  lemma NullConfigAnsweredAsMissing(data: Json, client: Summarize.ClientInit, backend: Summarize.Backend)
    ensures SummaryEndpoint(data, Summarize.LoadPromptConfig(Summarize.Parsed(JNull)).value, client, backend)
         == SummaryEndpoint(data, Summarize.LoadPromptConfig(Summarize.NotFound).value, client, backend)
  {
  }

  /**
   * A configuration that renders and a client that could be built: every
   * request with candidate data gets a 200 answer, even when the backend
   * call fails (its message is then the summary).
   */
  lemma SummaryFailuresAreAnswers(data: Json, config: Json, client: Summarize.ClientInit,
                                  backend: Summarize.Backend)
    requires data.JObject? && Truthy(GetOrNone(data.members, "candidate_data"))
    requires Truthy(config) && Summarize.Render(config).Success? && client.Ready?
    requires backend(Summarize.Render(config).value, GetOrNone(data.members, "candidate_data")).Failure?
    ensures SummaryEndpoint(data, Some(config), client, backend).status == 200
    ensures SummaryEndpoint(data, Some(config), client, backend).body
         == JsonBody(JObject([Member("summary", JString(Summarize.ErrorPrefix
              + backend(Summarize.Render(config).value, GetOrNone(data.members, "candidate_data")).error))]))
  {
    Summarize.RenderFailsIffMalformed(config);
  }

  // ---------------------------------------------------------------------------
  // add_candidate (lines 46-96)
  // ---------------------------------------------------------------------------

  /** The four fields of a candidate submission, as `data.get` returned them. */
  datatype CandidateFields = CandidateFields(id: Json, name: Json, email: Json, cvText: Json)

  const MissingFields: string := "Missing required fields"

  /** Lines 49-56: reading the body and checking that every field is truthy. */
  function ReadFields(data: Json): (r: Result<CandidateFields, Response>)
    ensures r.Success? <==>
      && data.JObject?
      && Truthy(GetOrNone(data.members, "id")) && Truthy(GetOrNone(data.members, "name"))
      && Truthy(GetOrNone(data.members, "email")) && Truthy(GetOrNone(data.members, "cvText"))
    ensures r.Success? ==> r.value == CandidateFields(GetOrNone(data.members, "id"), GetOrNone(data.members, "name"),
                                                      GetOrNone(data.members, "email"), GetOrNone(data.members, "cvText"))
    ensures data.JObject? && r.Failure? ==> r.error == Message(400, "error", MissingFields)
    ensures !data.JObject? ==> r.Failure? && r.error.status == 500
  {
    if !data.JObject? then
      // the AttributeError is caught by the handler's own except clause
      Failure(Message(500, "error", "'" + TypeName(data) + "' object has no attribute 'get'"))
    else
      var fields := CandidateFields(GetOrNone(data.members, "id"), GetOrNone(data.members, "name"),
                                    GetOrNone(data.members, "email"), GetOrNone(data.members, "cvText"));
      if Truthy(fields.id) && Truthy(fields.name) && Truthy(fields.email) && Truthy(fields.cvText)
      then Success(fields)
      else Failure(Message(400, "error", MissingFields))
  }

  /** The document key of a candidate: the ID as `str()` prints it. */
  function CandidateKey(id: Json): string
  {
    "candidate::" + PyStr(id)
  }

  /**
   * The INSERT of line 59. The ID is spliced into the statement text; name,
   * e-mail and CV text travel as named parameters beside it.
   */
  datatype InsertRequest = InsertRequest(statement: string, name: Json, email: Json, cvText: Json)

  function InsertStatement(bucket: string, id: Json): string
  {
    "INSERT INTO `" + bucket + "`._default.Candidate (KEY, VALUE) VALUES (\"" + CandidateKey(id)
    + "\", { \"ID\": " + PyStr(id) + ", \"Name\": $name, \"Email\": $email, \"CVText\": $cvText })"
  }

  function InsertFor(bucket: string, fields: CandidateFields): InsertRequest
  {
    InsertRequest(InsertStatement(bucket, fields.id), fields.name, fields.email, fields.cvText)
  }

  /**
   * Only the ID reaches the statement text: submissions with the same ID send
   * the same statement, and their name, e-mail and CV text travel only as
   * the named parameters.
   */
  lemma StatementIgnoresUserText(bucket: string, a: CandidateFields, b: CandidateFields)
    requires a.id == b.id
    ensures InsertFor(bucket, a).statement == InsertFor(bucket, b).statement
    ensures InsertFor(bucket, a).name == a.name && InsertFor(bucket, b).name == b.name
    ensures InsertFor(bucket, a).email == a.email && InsertFor(bucket, b).email == b.email
    ensures InsertFor(bucket, a).cvText == a.cvText && InsertFor(bucket, b).cvText == b.cvText
  {
  }

  /** Distinct integer IDs are stored under distinct document keys. */
  lemma CandidateKeysDistinct(i: int, j: int)
    ensures CandidateKey(JInt(i)) == CandidateKey(JInt(j)) <==> i == j
  {
    if CandidateKey(JInt(i)) == CandidateKey(JInt(j)) {
      var prefix := "candidate::";
      assert CandidateKey(JInt(i))[|prefix|..] == IntToString(i);
      assert CandidateKey(JInt(j))[|prefix|..] == IntToString(j);
      IntToStringInjective(i, j);
    }
  }

  /** What the query service did with the INSERT. */
  datatype DbReply =
    | Raised(message: string)              // requests.post raised; str(e)
    | Replied(status: int, text: string)

  /** The document a successful INSERT writes. */
  datatype CandidateRecord = CandidateRecord(idLiteral: string, name: Json, email: Json, cvText: Json)

  function RecordFor(fields: CandidateFields): CandidateRecord
  {
    CandidateRecord(PyStr(fields.id), fields.name, fields.email, fields.cvText)
  }

  const DbInsertFailed: string := "Failed to insert candidate to DB"

  function DbFailure(reply: DbReply): (r: Response)
    requires !(reply.Replied? && reply.status == 200)
    ensures r.status == 500
    ensures reply.Replied? ==> r.body == JsonBody(JObject([Member("error", JString(DbInsertFailed)),
                                                          Member("details", JString(reply.text))]))
    ensures reply.Raised? ==> r == Message(500, "error", reply.message)
  {
    match reply
    case Raised(message) => Message(500, "error", message)
    case Replied(_, text) =>
      Response(500, JsonBody(JObject([Member("error", JString(DbInsertFailed)), Member("details", JString(text))])))
  }

  /** The first arguments of the command line of line 82, up to the `--` that ends dotnet's own options. */
  const DotnetRun: seq<string> := ["dotnet", "run", "--project", "process_cv_csharp", "--"]

  /** An argument `subprocess.run` can pass to a program: a string without U+0000. */
  predicate PassableArgument(s: string) { '\0' !in s }

  const EmbeddedNull: string := "embedded null byte"

  /**
   * The command line of line 82. `subprocess.run` converts its arguments in
   * order before anything is launched: a value that is not a string raises
   * TypeError, and a string holding U+0000 raises ValueError.
   */
  function ExtractorArgs(cvText: Json, id: Json, apiKey: Option<string>): (r: Result<seq<string>, PyError>)
    ensures r.Success? <==>
      cvText.JString? && PassableArgument(cvText.s) && PassableArgument(PyStr(id))
      && apiKey.Some? && PassableArgument(apiKey.value)
    ensures r.Success? ==> r.value == DotnetRun + [cvText.s, PyStr(id), apiKey.value]
    ensures !cvText.JString? ==>
      r == Failure(TypeError("expected str, bytes or os.PathLike object, not " + TypeName(cvText)))
    ensures cvText.JString? && (!PassableArgument(cvText.s) || !PassableArgument(PyStr(id))) ==>
      r == Failure(ValueError(EmbeddedNull))
  {
    if !cvText.JString? then Failure(TypeError("expected str, bytes or os.PathLike object, not " + TypeName(cvText)))
    else if !PassableArgument(cvText.s) || !PassableArgument(PyStr(id)) then Failure(ValueError(EmbeddedNull))
    else if apiKey.None? then Failure(TypeError("expected str, bytes or os.PathLike object, not NoneType"))
    else if !PassableArgument(apiKey.value) then Failure(ValueError(EmbeddedNull))
    else Success(DotnetRun + [cvText.s, PyStr(id), apiKey.value])
  }

  /** What running the extraction process did. */
  datatype ExtractorReply =
    | Exited(code: int, stderr: string)
    | LaunchFailed(message: string)       // subprocess.run raised; str(e)

  const ExtractionWarning: string := "Candidate saved, but skill extraction failed"
  const Processed: string := "Candidate added and processed successfully"

  /** Lines 87-92 and the except clause: only the exit code decides between success and warning. */
  function ExtractionResponse(reply: ExtractorReply): (r: Response)
    ensures r.status == 200 <==> reply.Exited? && reply.code == 0
    ensures r.status == 201 <==> reply.Exited? && reply.code != 0
    ensures r.status == 500 <==> reply.LaunchFailed?
    ensures reply.Exited? && reply.code != 0 ==>
      r.body == JsonBody(JObject([Member("warning", JString(ExtractionWarning)), Member("details", JString(reply.stderr))]))
    ensures reply.Exited? && reply.code == 0 ==> r == Message(200, "message", Processed)
    ensures reply.LaunchFailed? ==> r == Message(500, "error", reply.message)
  {
    match reply
    case LaunchFailed(message) => Message(500, "error", message)
    case Exited(code, stderr) =>
      if code != 0 then
        Response(201, JsonBody(JObject([Member("warning", JString(ExtractionWarning)), Member("details", JString(stderr))])))
      else Message(200, "message", Processed)
  }

  /**
   * The services the server talks to, as far as ingestion changes them: the
   * Candidate collection, the statements sent to the query service and the
   * command lines handed to `subprocess.run` (including a call that raised
   * while launching the process).
   */
  class Deployment {
    const bucket: string
    const apiKey: Option<string>
    var candidates: map<string, CandidateRecord>
    var inserts: seq<InsertRequest>
    var extractorCalls: seq<seq<string>>

    constructor(bucket: string, apiKey: Option<string>)
      ensures this.bucket == bucket && this.apiKey == apiKey
      ensures candidates == map[] && inserts == [] && extractorCalls == []
    {
      this.bucket := bucket;
      this.apiKey := apiKey;
      candidates := map[];
      inserts := [];
      extractorCalls := [];
    }

    /**
     * POST /api/candidates. A rejected submission changes nothing; an
     * accepted one sends exactly one INSERT; a 200 reply stores the record,
     * which stays stored whatever the extraction does afterwards;
     * `subprocess.run` is called at most once, only after the record is
     * stored, and only with a command line it could convert.
     */
    method AddCandidate(data: Json, db: InsertRequest -> DbReply, extractor: seq<string> -> ExtractorReply)
      returns (response: Response)
      modifies this
      ensures ReadFields(data).Failure? ==>
        && response == ReadFields(data).error
        && candidates == old(candidates) && inserts == old(inserts) && extractorCalls == old(extractorCalls)
      ensures ReadFields(data).Success? ==>
        var fields := ReadFields(data).value;
        var request := InsertFor(bucket, fields);
        && inserts == old(inserts) + [request]
        && (!(db(request).Replied? && db(request).status == 200) ==>
              response == DbFailure(db(request)) && candidates == old(candidates) && extractorCalls == old(extractorCalls))
        && (db(request).Replied? && db(request).status == 200 ==>
              && candidates == old(candidates)[CandidateKey(fields.id) := RecordFor(fields)]
              && (ExtractorArgs(fields.cvText, fields.id, apiKey).Failure? ==>
                    response == Message(500, "error", ErrorText(ExtractorArgs(fields.cvText, fields.id, apiKey).error))
                    && extractorCalls == old(extractorCalls))
              && (ExtractorArgs(fields.cvText, fields.id, apiKey).Success? ==>
                    var args := ExtractorArgs(fields.cvText, fields.id, apiKey).value;
                    extractorCalls == old(extractorCalls) + [args] && response == ExtractionResponse(extractor(args))))
      ensures response.status in {200, 201} ==>
        && ReadFields(data).Success?
        && CandidateKey(ReadFields(data).value.id) in candidates
        && candidates[CandidateKey(ReadFields(data).value.id)] == RecordFor(ReadFields(data).value)
        && |extractorCalls| == |old(extractorCalls)| + 1
    {
      var read := ReadFields(data);
      if read.Failure? {
        return read.error;
      }
      var fields := read.value;
      var request := InsertFor(bucket, fields);
      inserts := inserts + [request];
      var reply := db(request);
      if !(reply.Replied? && reply.status == 200) {
        return DbFailure(reply);
      }
      candidates := candidates[CandidateKey(fields.id) := RecordFor(fields)];
      var args := ExtractorArgs(fields.cvText, fields.id, apiKey);
      if args.Failure? {
        return Message(500, "error", ErrorText(args.error));
      }
      extractorCalls := extractorCalls + [args.value];
      response := ExtractionResponse(extractor(args.value));
    }
  }

  /**
   * The hand-over to the extraction tool: an integer ID in the 32-bit range,
   * a string CV text and a configured key, neither holding U+0000, make a
   * command line whose
   * arguments after `--` pass the tool's guard with that ID, and whose first
   * such argument is the CV text.
   */
  lemma ToolAcceptsIntegerId(i: int, cvText: string, apiKey: string)
    requires CvTool.MinInt32 <= i <= CvTool.MaxInt32
    requires PassableArgument(cvText) && PassableArgument(apiKey)
    ensures ExtractorArgs(JString(cvText), JInt(i), Some(apiKey)).Success?
    ensures var args := ExtractorArgs(JString(cvText), JInt(i), Some(apiKey)).value;
      && args[|DotnetRun|] == cvText
      && CvTool.CandidateIdArgument(args[|DotnetRun|..]) == Some(i)
  {
    assert PassableArgument(IntToString(i)) by {
      assert forall k :: 0 <= k < |IntToString(i)| ==> IntToString(i)[k] != '\0';
    }
    var args := ExtractorArgs(JString(cvText), JInt(i), Some(apiKey)).value;
    assert args[|DotnetRun|..] == [cvText, IntToString(i), apiKey];
    CvTool.TryParseInt32OfIntToString(i);
  }

  /**
   * The tool's `Main` returns normally on every path, so every run exits with
   * code 0 and the server answers 200 "processed successfully" whatever the
   * run did: the 201 warning of lines 89-92 never reports a failure inside
   * the tool.
   */
  lemma EveryRunReportedAsProcessed(args: seq<string>, env: CvTool.ToolEnvironment, stderr: string)
    ensures ExtractionResponse(Exited(CvTool.ExitCode(CvTool.RunOutcome(args, env)), stderr))
            == Message(200, "message", Processed)
  {
  }

  /**
   * The server accepts any truthy ID, but the tool only a 32-bit integer: for
   * an ID such as "abc" the tool's guard fails, so the run writes nothing
   * (see CvTool.RunTool), and yet it exits with code 0 and the server answers
   * that the candidate was added and processed.
   */
  lemma NonNumericIdReportedAsProcessed(cvText: string, id: string, apiKey: string,
                                        env: CvTool.ToolEnvironment, stderr: string)
    requires CvTool.TryParseInt32(id).None?
    requires PassableArgument(cvText) && PassableArgument(id) && PassableArgument(apiKey)
    ensures ExtractorArgs(JString(cvText), JString(id), Some(apiKey)).Success?
    ensures var tail := ExtractorArgs(JString(cvText), JString(id), Some(apiKey)).value[|DotnetRun|..];
      && tail[1] == id
      && CvTool.CandidateIdArgument(tail).None?
      && CvTool.RunOutcome(tail, env) == CvTool.RejectedCandidateId
      && ExtractionResponse(Exited(CvTool.ExitCode(CvTool.RunOutcome(tail, env)), stderr))
         == Message(200, "message", Processed)
  {
    var args := ExtractorArgs(JString(cvText), JString(id), Some(apiKey)).value;
    assert args[|DotnetRun|..] == [cvText, id, apiKey];
  }

  /** "abc" is one such ID: `int.TryParse` rejects it. */
  lemma AbcIsNotAnInt32()
    ensures CvTool.TryParseInt32("abc").None?
  {
    assert CvTool.StripNumberWhite("abc") == "abc";
  }

  // ---------------------------------------------------------------------------
  // get_all_data (lines 98-126)
  // ---------------------------------------------------------------------------

  /**
   * What became of one query: `requests.post` raised (with `str(e)`), or the
   * service answered with a status, a text, and the body decoded as JSON (or
   * the decoder's message).
   */
  datatype QueryReply =
    | QueryRaised(message: string)
    | QueryAnswered(status: int, text: string, json: Result<Json, string>)

  /** run_query (lines 103-107): the `results` of the answer, [] when it has none. */
  function RunQuery(reply: QueryReply): (r: Result<Json, PyError>)
    ensures reply.QueryRaised? ==> r == Failure(OtherError(reply.message))
    ensures reply.QueryAnswered? && reply.status != 200 ==> r == Failure(OtherError("Query failed: " + reply.text))
    ensures r.Success? <==> reply.QueryAnswered? && reply.status == 200 && reply.json.Success? && reply.json.value.JObject?
    ensures r.Success? && Lookup(reply.json.value.members, "results").Some? ==>
      r.value == Lookup(reply.json.value.members, "results").value
    ensures r.Success? && Lookup(reply.json.value.members, "results").None? ==> r.value == JArray([])
  {
    if reply.QueryRaised? then Failure(OtherError(reply.message))
    else if reply.status != 200 then Failure(OtherError("Query failed: " + reply.text))
    else
      match reply.json
      case Failure(message) => Failure(OtherError(message))
      case Success(v) =>
        if !v.JObject? then Failure(AttributeError("'" + TypeName(v) + "' object has no attribute 'get'"))
        else
          match Lookup(v.members, "results")
          case Some(results) => Success(results)
          case None => Success(JArray([]))
  }

  /** The collections read, in the order of lines 110-114, with the keys of the answer. */
  const Collections: seq<string> := ["Skill", "Candidate", "CandidateSkill", "Ad", "AdSkill"]
  const ResultKeys: seq<string> := ["skills", "candidates", "candidate_skills", "ads", "ad_skills"]

  function SelectAll(bucket: string, collection: string): string
  {
    "SELECT VALUE t FROM `" + bucket + "`._default." + collection + " t"
  }

  function Statements(bucket: string): (r: seq<string>)
    ensures |r| == |Collections|
    ensures forall i :: 0 <= i < |r| ==> r[i] == SelectAll(bucket, Collections[i])
  {
    seq(|Collections|, i requires 0 <= i < |Collections| => SelectAll(bucket, Collections[i]))
  }

  /** The outcome of a run of queries: the statements sent and either every result or the first error. */
  datatype QueryRun = QueryRun(issued: seq<string>, results: Result<seq<Json>, PyError>)

  /** The position of the first statement whose query fails, or the number of statements when none does. */
  function FirstFailure(statements: seq<string>, query: string -> QueryReply): (k: nat)
    ensures k <= |statements|
    ensures forall i :: 0 <= i < k ==> RunQuery(query(statements[i])).Success?
    ensures k < |statements| ==> RunQuery(query(statements[k])).Failure?
  {
    if statements == [] || RunQuery(query(statements[0])).Failure? then 0
    else
      var k := FirstFailure(statements[1..], query);
      assert forall i :: 1 <= i <= k ==> statements[i] == statements[1..][i - 1];
      1 + k
  }

  /**
   * Running the statements one after the other; the first failure stops the
   * run, so the statements sent are those up to and including it.
   */
  function RunQueries(statements: seq<string>, query: string -> QueryReply): (r: QueryRun)
    ensures |r.issued| <= |statements| && r.issued == statements[..|r.issued|]
    ensures r.results.Success? <==> forall i :: 0 <= i < |statements| ==> RunQuery(query(statements[i])).Success?
    ensures r.results.Success? ==>
      && r.issued == statements
      && |r.results.value| == |statements|
      && forall i :: 0 <= i < |statements| ==> r.results.value[i] == RunQuery(query(statements[i])).value
    ensures r.results.Failure? ==>
      && 0 < |r.issued|
      && (forall i :: 0 <= i < |r.issued| - 1 ==> RunQuery(query(statements[i])).Success?)
      && RunQuery(query(statements[|r.issued| - 1])) == Failure(r.results.error)
  {
    var k := FirstFailure(statements, query);
    if k == |statements| then
      QueryRun(statements,
               Success(seq(|statements|, i requires 0 <= i < |statements| => RunQuery(query(statements[i])).value)))
    else
      QueryRun(statements[..k + 1], Failure(RunQuery(query(statements[k])).error))
  }

  /** The five-key object of lines 116-122. */
  function DumpObject(values: seq<Json>): Json
    requires |values| == |ResultKeys|
  {
    JObject(seq(|ResultKeys|, i requires 0 <= i < |ResultKeys| => Member(ResultKeys[i], values[i])))
  }

  /**
   * GET /api/data: the statements sent, and the answer; any failure makes a
   * 500 with its message and no partial data.
   */
  function GetAllData(bucket: string, query: string -> QueryReply): (r: (seq<string>, Response))
    ensures r.0 == RunQueries(Statements(bucket), query).issued
    ensures r.1.status == 200 <==> forall i :: 0 <= i < |Collections| ==> RunQuery(query(SelectAll(bucket, Collections[i]))).Success?
    ensures r.1.status == 200 ==>
      && r.0 == Statements(bucket)
      && r.1.body.JsonBody? && r.1.body.value.JObject?
      && |r.1.body.value.members| == |ResultKeys|
      && forall i :: 0 <= i < |ResultKeys| ==>
           r.1.body.value.members[i] == Member(ResultKeys[i], RunQuery(query(SelectAll(bucket, Collections[i]))).value)
    ensures r.1.status != 200 ==>
      && r.1.status == 500
      && RunQueries(Statements(bucket), query).results.Failure?
      && r.1 == Message(500, "error", ErrorText(RunQueries(Statements(bucket), query).results.error))
  {
    var run := RunQueries(Statements(bucket), query);
    match run.results
    case Failure(e) => (run.issued, Message(500, "error", ErrorText(e)))
    case Success(values) => (run.issued, Response(200, JsonBody(DumpObject(values))))
  }
}

=== FILE: summarize.dfy ===
/**
 * The summariser (summarize_genai.py): loading the prompt configuration,
 * rendering the system instruction from it, and turning a failed backend
 * call into an error text.
 *
 * The file system and the generative-AI backend are parameters: a load
 * attempt is described by what `open` and `json.load` did, and the backend is
 * a function from the instruction and the candidate data to either the
 * generated text or the message of the exception it raised.
 */
module Summarize {
  import opened Common
  import opened PyJson

  // ---------------------------------------------------------------------------
  // load_prompt_config (lines 14-25)
  // ---------------------------------------------------------------------------

  /** What reading the prompt file did. */
  datatype PromptFile =
    | NotFound                 // FileNotFoundError from open
    | Unreadable(error: PyError)  // any other error of open or json.load
    | Parsed(content: Json)

  /**
   * Only a missing file is caught, and it gives None; any other failure
   * propagates to the caller. A file holding JSON `null` gives Some(JNull),
   * which is Python's None as well: the server answers it as it answers a
   * missing file (Server.NullConfigAnsweredAsMissing).
   */
  function LoadPromptConfig(file: PromptFile): (r: Result<Option<Json>, PyError>)
    ensures r == Success(None) <==> file.NotFound?
    ensures r.Failure? <==> file.Unreadable?
    ensures file.Unreadable? ==> r.error == file.error
    ensures file.Parsed? ==> r == Success(Some(file.content))
  {
    match file
    case NotFound => Success(None)
    case Unreadable(e) => Failure(e)
    case Parsed(content) => Success(Some(content))
  }

  // ---------------------------------------------------------------------------
  // The system instruction (lines 37-48)
  // ---------------------------------------------------------------------------

  /** `v[key]` with a string key. */
  function Index(v: Json, key: string): (r: Result<Json, PyError>)
    ensures r.Success? <==> v.JObject? && Lookup(v.members, key).Some?
    ensures r.Success? ==> r.value == Lookup(v.members, key).value
    ensures v.JObject? && r.Failure? ==> r.error == KeyError(key)
    ensures !v.JObject? ==> r.Failure? && r.error.TypeError?
  {
    match v
    case JObject(members) =>
      (match Lookup(members, key)
       case Some(x) => Success(x)
       case None => Failure(KeyError(key)))
    case JArray(_) => Failure(TypeError("list indices must be integers or slices, not str"))
    case JString(_) => Failure(TypeError("string indices must be integers, not 'str'"))
    case _ => Failure(TypeError("'" + TypeName(v) + "' object is not subscriptable"))
  }

  const Bullet: string := "  * "

  /** `['  * ' + r for r in items]`: the first item that is not a string raises. */
  function Bullets(items: seq<Json>): (r: Result<seq<string>, PyError>)
    ensures r.Success? <==> forall i :: 0 <= i < |items| ==> items[i].JString?
    ensures r.Success? ==> |r.value| == |items|
    ensures r.Success? ==> forall i :: 0 <= i < |items| ==> r.value[i] == Bullet + items[i].s
  {
    if items == [] then Success([])
    else if !items[0].JString? then
      Failure(TypeError("can only concatenate str (not \"" + TypeName(items[0]) + "\") to str"))
    else
      match Bullets(items[1..])
      case Failure(e) => Failure(e)
      case Success(rest) => Success([Bullet + items[0].s] + rest)
  }

  /**
   * The triple-quoted f-string of lines 37-48: its source lines joined by
   * newlines, with their four-space indentation kept verbatim. The
   * requirements block is interpolated after the indentation of line 45.
   */
  function SystemInstruction(role: string, task: string, tone: string, example: string, requirements: string): string
  {
    Join('\n', Head(role, task, tone, example) + ["    " + requirements] + Tail)
  }

  /** Lines 37-44 of the f-string. */
  function Head(role: string, task: string, tone: string, example: string): seq<string>
  {
    [ "",
      "    You are acting as an " + role + ".",
      "    Task: " + task,
      "    Tone: " + tone,
      "    ",
      "    Style Guide:",
      "    - Follow this example structure: \"" + example + "\"",
      "    - Requirements:" ]
  }

  /**
   * Lines 46-48 of the f-string. The middle line is written as two literals
   * only so that the verifier can see, piece by piece, that it holds no line
   * break; the text is line 47's.
   */
  const Tail: seq<string> :=
    [ "    ",
      "    Analyze the provided " + "candidate data and generate a summary.",
      "    " ]

  /**
   * The configuration is indexed in the order the f-string evaluates its
   * fields, and the first failing step raises.
   */
  function Render(config: Json): (r: Result<string, PyError>)
  {
    var instruction :- Index(config, "system_instruction");
    var role :- Index(instruction, "role");
    var task :- Index(instruction, "task");
    var tone :- Index(instruction, "tone");
    var guide :- Index(instruction, "style_guide");
    var example :- Index(guide, "example");
    var requirements :- Index(guide, "requirements");
    var items :- Iterate(requirements);
    var bullets :- Bullets(items);
    Success(SystemInstruction(PyStr(role), PyStr(task), PyStr(tone), PyStr(example), Join('\n', bullets)))
  }

  /** The configuration shape rendering needs. */
  predicate WellShaped(config: Json)
  {
    && Index(config, "system_instruction").Success?
    && var instruction := Index(config, "system_instruction").value;
    && Index(instruction, "role").Success?
    && Index(instruction, "task").Success?
    && Index(instruction, "tone").Success?
    && Index(instruction, "style_guide").Success?
    && var guide := Index(instruction, "style_guide").value;
    && Index(guide, "example").Success?
    && Index(guide, "requirements").Success?
    && var requirements := Index(guide, "requirements").value;
    && (requirements.JArray? || requirements.JString? || requirements.JObject?)
    && (requirements.JArray? ==> forall i :: 0 <= i < |requirements.items| ==> requirements.items[i].JString?)
  }

  /** Rendering raises exactly when the configuration lacks a key or holds a value of the wrong kind. */
  lemma RenderFailsIffMalformed(config: Json)
    ensures Render(config).Success? <==> WellShaped(config)
  {
    if WellShaped(config) {
      var guide := Index(Index(config, "system_instruction").value, "style_guide").value;
      var requirements := Index(guide, "requirements").value;
      var items := Iterate(requirements).value;
      if requirements.JString? {
        assert forall i :: 0 <= i < |items| ==> items[i].JString?;
      } else if requirements.JObject? {
        assert forall i :: 0 <= i < |items| ==> items[i].JString?;
      }
    }
  }

  /**
   * The block is interpolated after four spaces of indentation, so only its
   * first line is indented; an empty block leaves a line of four spaces.
   */
  function IndentFirst(bullets: seq<string>): seq<string>
  {
    if bullets == [] then ["    "] else ["    " + bullets[0]] + bullets[1..]
  }

  predicate SingleLine(s: string) { '\n' !in s }

  lemma InstructionIsJoin(role: string, task: string, tone: string, example: string, bullets: seq<string>)
    ensures SystemInstruction(role, task, tone, example, Join('\n', bullets))
         == Join('\n', Head(role, task, tone, example) + IndentFirst(bullets) + Tail)
  {
    var head := Head(role, task, tone, example);
    var block := IndentFirst(bullets);
    var line := "    " + Join('\n', bullets);
    assert line == Join('\n', block) by {
      if bullets != [] {
        JoinPrefix('\n', "    ", bullets);
      }
    }
    JoinAppend('\n', head, [line]);
    JoinAppend('\n', head + [line], Tail);
    JoinAppend('\n', head, block);
    JoinAppend('\n', head + block, Tail);
  }

  predicate AllSingleLines(lines: seq<string>)
  {
    forall i :: 0 <= i < |lines| ==> SingleLine(lines[i])
  }

  lemma AllSingleLinesAppend(a: seq<string>, b: seq<string>)
    requires AllSingleLines(a) && AllSingleLines(b)
    ensures AllSingleLines(a + b)
  {
    assert forall i :: 0 <= i < |b| ==> (a + b)[|a| + i] == b[i];
  }

  lemma FollowPrefixSingleLine()
    ensures SingleLine("    - Follow this example structure: \"")
  {
  }

  lemma ActingPrefixSingleLine()
    ensures SingleLine("    You are acting as an ")
  {
  }

  lemma HeadSingleLines(role: string, task: string, tone: string, example: string)
    requires SingleLine(role) && SingleLine(task) && SingleLine(tone) && SingleLine(example)
    ensures AllSingleLines(Head(role, task, tone, example))
  {
    var h := Head(role, task, tone, example);
    ActingPrefixSingleLine();
    FollowPrefixSingleLine();
    assert SingleLine(h[1]) by { assert h[1] == "    You are acting as an " + role + "."; }
    assert SingleLine(h[6]) by { assert h[6] == "    - Follow this example structure: \"" + example + "\""; }
  }

  lemma TailSingleLines()
    ensures AllSingleLines(Tail)
  {
    assert SingleLine(Tail[1]);
  }

  lemma IndentFirstSingleLines(bullets: seq<string>)
    requires AllSingleLines(bullets)
    ensures AllSingleLines(IndentFirst(bullets))
  {
    if bullets != [] {
      var b := IndentFirst(bullets);
      assert forall i :: 1 <= i < |b| ==> b[i] == bullets[i];
    }
  }

  /**
   * Every field lands verbatim on its own line of the instruction, and each
   * requirement becomes one line, in order, only the first of them indented.
   */
  lemma InstructionLayout(role: string, task: string, tone: string, example: string, bullets: seq<string>)
    requires SingleLine(role) && SingleLine(task) && SingleLine(tone) && SingleLine(example)
    requires AllSingleLines(bullets)
    ensures Split(SystemInstruction(role, task, tone, example, Join('\n', bullets)), '\n')
         == Head(role, task, tone, example) + IndentFirst(bullets) + Tail
  {
    InstructionIsJoin(role, task, tone, example, bullets);
    HeadSingleLines(role, task, tone, example);
    IndentFirstSingleLines(bullets);
    TailSingleLines();
    AllSingleLinesAppend(Head(role, task, tone, example), IndentFirst(bullets));
    AllSingleLinesAppend(Head(role, task, tone, example) + IndentFirst(bullets), Tail);
    SplitJoin('\n', Head(role, task, tone, example) + IndentFirst(bullets) + Tail);
  }

  // ---------------------------------------------------------------------------
  // A configuration written as the prompt file documents it
  // ---------------------------------------------------------------------------

  function StringList(items: seq<string>): seq<Json>
  {
    seq(|items|, i requires 0 <= i < |items| => JString(items[i]))
  }

  function GuideOf(example: string, requirements: seq<string>): Json
  {
    JObject([
      Member("example", JString(example)),
      Member("requirements", JArray(StringList(requirements)))])
  }

  function InstructionOf(role: string, task: string, tone: string, guide: Json): Json
  {
    JObject([
      Member("role", JString(role)),
      Member("task", JString(task)),
      Member("tone", JString(tone)),
      Member("style_guide", guide)])
  }

  /** `{"system_instruction": {"role": …, "task": …, "tone": …, "style_guide": {"example": …, "requirements": [...]}}}` */
  function ConfigOf(role: string, task: string, tone: string, example: string, requirements: seq<string>): Json
  {
    JObject([Member("system_instruction", InstructionOf(role, task, tone, GuideOf(example, requirements)))])
  }

  lemma IndexInstructionOf(role: string, task: string, tone: string, guide: Json)
    ensures Index(InstructionOf(role, task, tone, guide), "role") == Success(JString(role))
    ensures Index(InstructionOf(role, task, tone, guide), "task") == Success(JString(task))
    ensures Index(InstructionOf(role, task, tone, guide), "tone") == Success(JString(tone))
    ensures Index(InstructionOf(role, task, tone, guide), "style_guide") == Success(guide)
  {
    var fields := InstructionOf(role, task, tone, guide).members;
    LookupLastWins(fields, 0);
    LookupLastWins(fields, 1);
    LookupLastWins(fields, 2);
    LookupLastWins(fields, 3);
  }

  lemma IndexGuideOf(example: string, requirements: seq<string>)
    ensures Index(GuideOf(example, requirements), "example") == Success(JString(example))
    ensures Index(GuideOf(example, requirements), "requirements") == Success(JArray(StringList(requirements)))
  {
    var fields := GuideOf(example, requirements).members;
    LookupLastWins(fields, 0);
    LookupLastWins(fields, 1);
  }

  /** A configuration of strings renders each field verbatim and each requirement as a bullet. */
  lemma RenderConfigOf(role: string, task: string, tone: string, example: string, requirements: seq<string>)
    ensures Render(ConfigOf(role, task, tone, example, requirements))
         == Success(SystemInstruction(role, task, tone, example,
              Join('\n', seq(|requirements|, i requires 0 <= i < |requirements| => Bullet + requirements[i]))))
  {
    IndexInstructionOf(role, task, tone, GuideOf(example, requirements));
    IndexGuideOf(example, requirements);
    var bullets := Bullets(StringList(requirements));
    assert bullets.value == seq(|requirements|, i requires 0 <= i < |requirements| => Bullet + requirements[i]);
  }

  // ---------------------------------------------------------------------------
  // generate_candidate_summary (lines 27-68)
  // ---------------------------------------------------------------------------

  /** Whether `genai.Client(api_key=API_KEY)` could be constructed. */
  datatype ClientInit = Ready | InitFailed(error: PyError)

  /**
   * What the backend call does with the instruction and the candidate data:
   * `Success(Some(t))` when the response has text `t`, `Success(None)` when its
   * `text` is None, `Failure(m)` when the call raised an exception whose
   * `str()` is `m`.
   */
  type Backend = (string, Json) -> Result<Option<string>, string>

  const ErrorPrefix: string := "Error generating summary: "

  /**
   * Rendering and client construction happen outside the try block and
   * raise; an exception of the backend call is returned as a text.
   */
  function GenerateCandidateSummary(candidateData: Json, config: Json, client: ClientInit, backend: Backend)
    : (r: Result<Option<string>, PyError>)
    ensures r.Failure? <==> !WellShaped(config) || client.InitFailed?
    ensures !WellShaped(config) ==> r == Render(config).PropagateFailure()
    ensures r.Success? ==> Render(config).Success?
    ensures r.Success? && backend(Render(config).value, candidateData).Success? ==>
      r.value == backend(Render(config).value, candidateData).value
    ensures r.Success? && backend(Render(config).value, candidateData).Failure? ==>
      r.value == Some(ErrorPrefix + backend(Render(config).value, candidateData).error)
  {
    RenderFailsIffMalformed(config);
    var instruction :- Render(config);
    if client.InitFailed? then Failure(client.error)
    else
      match backend(instruction, candidateData)
      case Success(text) => Success(text)
      case Failure(message) => Success(Some(ErrorPrefix + message))
  }
}
